=== FILE: README.md ===
# Minecraft server monitor — decision logic in Dafny

This project models the decision logic of `MinecraftServerMonitor.py`, a
console program that keeps a list of Minecraft servers in SQLite. It polls
their player counts every five minutes and answers typed commands. It also
writes a daily report, purges old samples weekly and flags sudden rises and
falls in a server's player count. The model covers:

- **Store** (`store.dfy`): the `servers` and `stats` tables as immutable
  values. Names and addresses are unique, and ids come from AUTOINCREMENT.
  The module covers the writes the monitor performs: `add_server`,
  `remove_server`, `delete_server_data`, `clean_old_data`, and the polling
  round of `collect_data`.
- **Queries** (`queries.dfy`): one server's history through the
  `stats JOIN servers` queries, and the `datetime('now', '-N days')`
  windows. It covers the report aggregate (MAX, AVG, COUNT of distinct
  days), the time-ordered series the trend chart plots, and the six newest
  counts the anomaly check reads.
- **Anomaly** (`anomaly.dfy`): the spike/drop rule of `detect_anomalies`,
  evaluated exactly.
- **Commands** (`commands.dfy`, `text.dfy`): how `_execute_command`
  routes a command line and what each `_handle_*` method does. This relies
  on `str.split()`, `str.startswith` and `int()`, modelled in `text.dfy`.
- **Scheduler** (`scheduler.dfy`): one pass of the loop in `run`. A pass
  drains the queued commands, then decides collect/report/clean/detect from
  the clocks and the markers, then runs the actions in order. The module
  also covers sequences of passes.

`optional.dfy` and `seqs.dfy` hold the option type and the order-keeping
filter that every `WHERE` clause is built on.

Clocks and the network are inputs:

- Every pass receives its clock readings.
- The status query `JavaServer.lookup(ip).status()` is a function from
  address to an optional player count.
- `time.time()` is whole UTC seconds. Stored timestamps and SQLite's
  `'now'` use the same scale.
- `datetime.now()` is whole seconds of local time counted from a local
  midnight.

The anomaly rule is exact, not floating point. Let `n` be the baseline
size, `S` its sum, `t = n * current - S`, and `Q` the sum of
`(n * x - S)^2` over the baseline. Then `Q` is `n^2 (n - 1)` times the
sample variance, and:

- `std == 0` exactly when `Q == 0`;
- `current > avg + 2 * std` exactly when `t > 0` and `t^2 (n - 1) > 4 Q`;
- the drop test is the same with `t < 0`.

`Anomaly.Judge` evaluates the rule in this form, so no square root is
needed. `Anomaly.AssessFollowsRule` proves that it is the code's rule:
with the mean of the baseline and any non-negative `std` whose square is
the sample variance, `Assess` equals `Anomaly.Rule`, which compares the
count with `1.5 * avg` or `avg + 2 * std` and with `avg - 2 * std` exactly
as lines 167-175 do.

The model follows the code in these quirks, two of which go against the
code's own comments (`# 每日报告`, "daily report", at line 325 and
`# 每小时异常检测`, "hourly anomaly check", at line 336):

- A baseline with zero deviation still flags a drop whenever the newest
  count is below the mean (`current < avg - 2*0`). See
  `Anomaly.FlatBaselineDrop`.
- The daily report and the hourly anomaly check have no once-per-day or
  once-per-hour guard. They fire on every pass, about ten per second, that
  falls in 08:00–08:04 or in minute 0. `last_report` is written and never
  read. See `Scheduler.NoOncePerDayGuard` and `Scheduler.ReportMarkerUnread`.
- `CONFIG["never_delete_data"]` is `True` in the file, but the constructor
  overwrites it with the `--never-delete` flag, which defaults to off
  (`Scheduler.Launch`).

## Model

| member | source | states |
|---|---|---|
| Store.AddServer | MinecraftServerMonitor.py:228-239 | the address is queried first; an unreachable server is refused, a duplicate name or address is refused, and only then is a row with a fresh id appended; a refused add changes nothing; the table invariants are kept |
| Store.RemoveServer | MinecraftServerMonitor.py:241-243 | reports found exactly when a server had the name; afterwards no server has it, every other server is kept, and the samples stay untouched (no cascade) |
| Store.DeleteServerData | MinecraftServerMonitor.py:245-252 | an unknown name changes nothing and reports no count; a known name loses every sample with its id, every other sample is kept with its multiplicity, the registration stays, and the count is the number of rows removed |
| Store.CleanOldData | MinecraftServerMonitor.py:177-184 | with never-delete nothing changes and no count is reported; otherwise exactly the samples strictly older than thirty days before now are removed, the rest kept with multiplicity, and the count equals the number of stale samples |
| Store.Poll | MinecraftServerMonitor.py:103-121 | one sample per server whose status query succeeds, in listing order, tagged with that server's id and its player count |
| Store.CollectData | MinecraftServerMonitor.py:103-121 | the polling round is appended to the samples and nothing else changes; the invariants are kept |
| Store.FailureIsIsolated | MinecraftServerMonitor.py:107-121 | a server whose query fails costs only its own sample: the round equals the round over the other servers |
| Store.ReAddedServerHasFreshId | MinecraftServerMonitor.py:36-41 | a name removed and added again gets a new id that no stored sample carries, so old samples never rejoin it |
| Store.AddThenRemove | MinecraftServerMonitor.py:228-243 | adding a server and removing it by name finds it and restores the server table |
| Store.IdOf | MinecraftServerMonitor.py:98-101 | the id of the registered server with the name, or none when no server has it |
| Queries.History | MinecraftServerMonitor.py:150-156 | the join returns exactly the stored samples tagged with the id of a registered server of that name, and nothing for an unknown name |
| Queries.HistoryMultiplicity | MinecraftServerMonitor.py:150-156 | each sample carrying the server's id appears in its history as often as it is stored; no other sample appears |
| Queries.WindowStart | MinecraftServerMonitor.py:137 | the window begins exactly `days` days before now; the bound is NULL, so the window is empty, exactly when the count is negative, when it is 5,373,485 days or more, or when the instant falls outside SQLite's date range |
| Queries.OrdinaryWindowHasStart | MinecraftServerMonitor.py:137 | any count from 0 to 2,440,587 days (Julian day 0 to 1970), taken at any time from 1970 to the end of the year 9999, gives a bound |
| Queries.Window | MinecraftServerMonitor.py:134-138 | exactly the server's samples strictly after the window start, none without a start |
| Queries.WindowMultiplicity | MinecraftServerMonitor.py:134-138 | a sample of the history strictly after the start appears in the window as often as in the history; no earlier sample appears |
| Queries.Summarize | MinecraftServerMonitor.py:129-134 | over no rows no peak, no average and zero days; otherwise the peak is a maximum attained by some row, an average is present, and the day count is the number of distinct calendar days among the rows |
| Queries.AverageIsMean | MinecraftServerMonitor.py:132 | the reported average is the mean: multiplied by the row count it gives the total of the player counts |
| Queries.AverageAtMostPeak | MinecraftServerMonitor.py:131-132 | the reported average never exceeds the reported peak |
| Queries.OneDayCountsOnce | MinecraftServerMonitor.py:133 | rows all on one calendar day count as one day |
| Queries.Report | MinecraftServerMonitor.py:123-144 | one row per registered server in listing order, each holding the aggregate of that server's samples after the window start; a NULL window start gives empty summaries |
| Queries.SortByTime | MinecraftServerMonitor.py:200 | time order, as a permutation of the rows |
| Queries.Latest | MinecraftServerMonitor.py:155-156 | at most the limit, newest first, drawn from the rows, and no row left out is later than a row returned |
| Queries.RecentCounts | MinecraftServerMonitor.py:150-159 | the player counts of the latest six samples, newest first: as many as the history holds, up to six |
| Queries.NewestCountIsCurrent | MinecraftServerMonitor.py:150-162 | the first count the anomaly check reads belongs to a newest sample of the server's history |
| Queries.LatestHeadIsMax | MinecraftServerMonitor.py:155-156 | the first row of `ORDER BY timestamp DESC LIMIT n` is a row with the greatest timestamp |
| Queries.Series | MinecraftServerMonitor.py:190-204 | the window's rows in time order, as a permutation of the window |
| Queries.PolledSampleInWindow | MinecraftServerMonitor.py:196-200 | a sample the polling round stored appears in the trend series exactly for windows that start before it |
| Text.Split | MinecraftServerMonitor.py:393 | every word is non-empty and free of whitespace |
| Text.SplitKeepsVisible | MinecraftServerMonitor.py:393 | splitting drops the whitespace and nothing else |
| Text.SplitUnsplit | MinecraftServerMonitor.py:393 | words joined by single spaces split back into the same words |
| Text.SplitSkipsSpaces | MinecraftServerMonitor.py:393 | a run of whitespace in front of a line adds no word |
| Text.SplitWordGap | MinecraftServerMonitor.py:393 | a word ended by a whitespace run of any length is one word of the split, and the split continues after the run |
| Text.SplitThreeWords | MinecraftServerMonitor.py:393-398 | three words separated by whitespace runs of any length, as in `add  x  y`, split into exactly those three words |
| Text.ParseInt | MinecraftServerMonitor.py:417 | a value exactly for a digit group (digits with single underscores between them) with or without one leading sign; the value is the decimal value of the digits, negated after a minus |
| Text.ParseShowInt | MinecraftServerMonitor.py:428 | every integer written in decimal parses back to itself |
| Anomaly.Judge | MinecraftServerMonitor.py:163-175 | never skips; a drop lies below the baseline mean, a spike over a non-negative baseline lies above it, and a count at the mean is normal |
| Anomaly.AssessFollowsRule | MinecraftServerMonitor.py:163-175 | for every list of at least three counts and every non-negative `std` whose square is the sample variance of the older counts, the verdict is the code's rule on the newest count with that mean and `std`: a spike above `1.5 * avg` when `std` is zero and above `avg + 2 * std` otherwise, else a drop below `avg - 2 * std`, else normal |
| Anomaly.BaselineRule | MinecraftServerMonitor.py:163-175 | the integer test on a baseline's size, sum and spread is the code's rule with the baseline's mean and standard deviation |
| Anomaly.BaselineSummary | MinecraftServerMonitor.py:164-165 | a baseline's sum is its size times its mean, and its spread is `n^2` times the sum of squared distances from the mean, which is `(n - 1) std^2` |
| Anomaly.SpreadAroundScaled | MinecraftServerMonitor.py:165 | the integer spread around `s = n * m` is `n^2` times the sum of squared distances from `m` |
| Anomaly.JudgeFollowsRule | MinecraftServerMonitor.py:167-175 | for numbers that summarize a baseline, the integer test and the code's rule give the same verdict, on both the flat and the spread branch |
| Anomaly.FlatJudge | MinecraftServerMonitor.py:167-175 | with zero deviation, `2 n c > 3 s` is `c > 1.5 * avg` and `n c < s` is `c < avg - 2 * 0` |
| Anomaly.SpreadJudge | MinecraftServerMonitor.py:169-175 | with positive deviation, the integer test is `c > avg + 2 * std` for a spike and `c < avg - 2 * std` for a drop |
| Anomaly.SpreadRule | MinecraftServerMonitor.py:169-175 | with positive `std`, `c > avg + 2 * std` holds exactly when `c - avg` is positive and its square exceeds `4 std^2`, and the drop test likewise below the mean |
| Anomaly.Assess | MinecraftServerMonitor.py:159-161 | a server is skipped exactly when fewer than three counts are available |
| Anomaly.SpreadZeroIffConstant | MinecraftServerMonitor.py:165-167 | the standard deviation of the baseline is zero exactly when all its counts are equal |
| Anomaly.ConstantBaseline | MinecraftServerMonitor.py:167-175 | against a flat baseline of value c, a spike is a count above 1.5 c, a drop is any count below c, and nothing else is flagged |
| Anomaly.JudgeSpikeMonotone | MinecraftServerMonitor.py:167-173 | for a fixed baseline, a higher count is a spike whenever a lower one is |
| Anomaly.JudgeDropMonotone | MinecraftServerMonitor.py:174 | for a fixed baseline, a lower count is a drop whenever a higher one is |
| Anomaly.SpikeUpwardClosed | MinecraftServerMonitor.py:163-173 | raising the newest count keeps a spike a spike |
| Anomaly.DropDownwardClosed | MinecraftServerMonitor.py:163-175 | lowering the newest count keeps a drop a drop |
| Anomaly.ShiftKeepsVerdict | MinecraftServerMonitor.py:169-175 | against a baseline that is not flat, raising every count by the same amount keeps the verdict |
| Anomaly.FlatBaselineExamples | MinecraftServerMonitor.py:167-173 | over a baseline of 10s, 16 is a spike and 14 is not flagged |
| Anomaly.FlatThresholdIsRelative | MinecraftServerMonitor.py:167-168 | against a flat baseline the same rise is a spike over 10 and not over 20 |
| Anomaly.FlatBaselineDrop | MinecraftServerMonitor.py:174 | with a zero deviation a count below the mean is still a drop |
| Anomaly.SpreadBaselineExamples | MinecraftServerMonitor.py:163-175 | over 10,12,8,11,9 (std about 1.58), 20 is a spike, 3 a drop and 13 not flagged |
| Anomaly.DetectAnomalies | MinecraftServerMonitor.py:146-161 | one verdict per registered server in listing order, skipped exactly when the server has fewer than three samples, and otherwise the verdict of the rule on that server's six newest counts |
| Anomaly.FlaggedAgainstMean | MinecraftServerMonitor.py:159-175 | a server flagged by the check has at least three counts, its newest count lies below the mean of the older ones when it is a drop and above it when it is a spike over a non-negative baseline |
| Anomaly.FlaggedCount | MinecraftServerMonitor.py:163-175 | the same for the rule applied to a list of counts, newest first |
| Commands.RouteOf | MinecraftServerMonitor.py:359-381 | each route exactly: `exit`, `help`, `now`, `list` and `config` as exact words; add, remove, delete, report and trend for every line starting with that word and with no word the interpreter checks before it; unknown exactly when no word matches |
| Commands.PrefixRoutes | MinecraftServerMonitor.py:368-379 | `addr x y` adds, `reporting` reports, `removeall` removes, `deleted x` deletes, `trends 7 a` plots, while `configure` and `exit now` are unknown |
| Commands.UnknownChangesNothing | MinecraftServerMonitor.py:380-381 | a line that is no exact command word and starts with no command prefix is answered as unknown and changes nothing |
| Commands.Execute | MinecraftServerMonitor.py:359-381 | only add, remove and delete can change the store; the reply says stop exactly for `exit`; `help` shows the help, `now` answers with the live query of every server, `list` with the server table and `config` with the interval and retention switch; the invariants are kept |
| Commands.LiveQuery | MinecraftServerMonitor.py:254-271 | every registered server in order with its live count or failure |
| Commands.Unregistered | MinecraftServerMonitor.py:430-431 | every given name that no server has, and only those, in the given order; empty exactly when every name is registered |
| Commands.HandleAdd | MinecraftServerMonitor.py:392-398 | a usage error exactly when the line is not three words; otherwise the add outcome, adding exactly when the address answers and neither name nor address is taken, appending one server and leaving the samples; a refusal changes nothing |
| Commands.HandleRemove | MinecraftServerMonitor.py:400-405 | a usage error exactly when the line is not two words, changing nothing; otherwise exactly the store and found flag of removing the named server, so every other server is kept and no server has the name afterwards; samples untouched |
| Commands.HandleDelete | MinecraftServerMonitor.py:407-412 | a usage error exactly when the line is not two words, changing nothing; the registration always stays; an unknown name changes nothing and reports no count; a known name loses all its samples and reports a count; a two-word line gives exactly the store and count of deleting that server's data, so every other sample is kept and the count is the number of rows removed |
| Commands.HandleReport | MinecraftServerMonitor.py:414-420 | the days word is rejected exactly when it is present and not an integer; otherwise the report over that many days, or over one day without a days word |
| Commands.HandleTrend | MinecraftServerMonitor.py:422-437 | a usage error exactly under three words; the days word rejected exactly when it is not an integer; a chart exactly when every name is registered, holding each name's windowed series in order; otherwise the unknown names |
| Commands.AddCommandAdds | MinecraftServerMonitor.py:392-398 | `add <name> <ip>` registers exactly as adding the server directly does |
| Commands.RemoveCommandRemoves | MinecraftServerMonitor.py:400-405 | `remove <name>` unregisters exactly as removing the server directly does, with the same found flag |
| Commands.DeleteCommandDeletes | MinecraftServerMonitor.py:407-412 | `delete <name>` changes the store and reports the count exactly as deleting the server's data directly does |
| Commands.AddArity | MinecraftServerMonitor.py:392-396 | an add line without exactly three words is a usage error and changes nothing |
| Commands.RemoveDeleteArity | MinecraftServerMonitor.py:400-412 | remove and delete lines without exactly two words are usage errors and change nothing |
| Commands.ReportDefaultsToOneDay | MinecraftServerMonitor.py:414-417 | a one-word report line (`report`, `reports`) reports the last day |
| Commands.ReportWithDays | MinecraftServerMonitor.py:414-420 | `report <n>` reports the last n days for any integer n |
| Commands.TrendArity | MinecraftServerMonitor.py:422-426 | a trend line of fewer than three words is a usage error and changes nothing |
| Commands.BadDaysRejected | MinecraftServerMonitor.py:414-437 | a days word that is not an integer is rejected by report and trend, and nothing changes |
| Commands.TrendAllOrNothing | MinecraftServerMonitor.py:422-437 | with a valid days word, the chart is drawn exactly when every name is registered, each name with its series over the window in order; otherwise exactly the unknown names are listed |
| Scheduler.Decide | MinecraftServerMonitor.py:320-338 | collect exactly when an interval of wall time has passed since the collect marker, report exactly in local 08:00:00–08:04:59, detect exactly in the first minute of a local hour, clean exactly once a week of local time has passed since the last clean |
| Scheduler.Advance | MinecraftServerMonitor.py:321-334 | the collect marker moves to the reading taken after a collection and the clean marker to the pass's local time, and only when those actions ran |
| Scheduler.ReportMarkerUnread | MinecraftServerMonitor.py:312-329 | the report marker has no influence on any decision |
| Scheduler.NoOncePerDayGuard | MinecraftServerMonitor.py:326-338 | in any sequence of passes, each pass reports and detects on its own local time, whatever the earlier passes did |
| Scheduler.CleanWaitsForMarker | MinecraftServerMonitor.py:331-334 | a cleaning pass comes at least a week after the starting clean marker |
| Scheduler.CleanAtMostWeekly | MinecraftServerMonitor.py:331-334 | any two cleaning passes are at least a week of local time apart |
| Scheduler.CollectWaitsForMarker | MinecraftServerMonitor.py:320-323 | a collecting pass comes at least one interval after the starting collect marker |
| Scheduler.CollectSpacing | MinecraftServerMonitor.py:320-323 | two collecting passes are at least one interval apart, counted from the reading after the earlier collection |
| Scheduler.QuietStart | MinecraftServerMonitor.py:311-334 | no cleaning in the first week after start and no collection in the first interval |
| Scheduler.AllFourInOnePass | MinecraftServerMonitor.py:320-338 | collect, report, clean and detect can all fire in the same pass |
| Scheduler.AnswerFirst | MinecraftServerMonitor.py:347-357 | answering one more command in front keeps the answers one for one with the commands |
| Scheduler.Drain | MinecraftServerMonitor.py:347-357 | every queued command is answered in order, and the answer says stop exactly for `exit`; the invariants are kept |
| Scheduler.DrainPrefix | MinecraftServerMonitor.py:347-357 | each command is answered on the store the commands before it left |
| Scheduler.DrainAt | MinecraftServerMonitor.py:347-357 | the same for one position in the queue |
| Scheduler.Launch | MinecraftServerMonitor.py:88-92 | the monitor starts running on the given store, with both markers at the start time and the retention switch taken from the `--never-delete` flag alone |
| Scheduler.QuietAfterLaunch | MinecraftServerMonitor.py:311-334 | a freshly launched monitor neither cleans in its first week nor collects in its first interval |
| Scheduler.Perform | MinecraftServerMonitor.py:320-338 | the scheduled actions never change the server table; the samples become the old ones plus the round polled when collecting, and without cleaning (or with never-delete) exactly that; a clean leaves no sample older than the cutoff and keeps every newer one with its multiplicity; the invariants are kept |
| Scheduler.Fired | MinecraftServerMonitor.py:320-338 | the ranks of the fired actions strictly increase |
| Scheduler.FiredHas | MinecraftServerMonitor.py:320-338 | rank 1, 2, 3 or 4 is fired exactly when the plan collects, reports, cleans or detects |
| Scheduler.PerformEventOrder | MinecraftServerMonitor.py:320-338 | the pass emits one event per action that fires, in the order collect, report, clean, detect |
| Scheduler.PerformEventContents | MinecraftServerMonitor.py:320-338 | the collection event holds the round polled, the report is taken on the store with that round, the retention count is absent exactly under never-delete, and the verdicts are read from the store the pass leaves |
| Scheduler.Tick | MinecraftServerMonitor.py:316-340 | the pass stops the loop exactly when `exit` was queued; the markers advance by the pass's decision; answers to the commands come first, each on the store its predecessors left; the store the pass leaves and the events after the answers are exactly those of the scheduled actions run on the store the commands left |
| Scheduler.ExitStillRunsSchedule | MinecraftServerMonitor.py:316-340 | after an `exit` the pass still emits, after the answers, one event per scheduled action it decided on, in order, and then the loop ends |

## Left out

- SQLite, the connection and its lock: replaced by the immutable store. Every query is taken to be atomic and to return rows in insertion order.
- The status query: it is a function from address to an optional count. Its two-second timeout and the "timed out" wording are not modelled.
- The console thread, keystroke buffer, `strip().lower()` and the queue: a command line reaches the interpreter already stripped, lower-cased and non-empty. `exit` from Ctrl-C (`KeyboardInterrupt`) is not modelled.
- The `try`/`except Exception` around each command. The one modelled command that can raise is `trend`: `plot_trend` builds its file name from the server names and calls `savefig`, so a registered name such as `a/b` makes `trend 7 a/b` raise `FileNotFoundError`, which the loop reports as a command error. The model answers `Chart` there, because the file system is not modelled.
- `time.sleep(0.1)` and the clocks: each pass gets its readings as inputs. All SQLite `'now'` values in a pass are the pass's wall reading.
- Sub-second clock resolution: readings are whole seconds.
- The plotting in `plot_trend`: the chart, its file name, markers and colours. The model keeps the data each line is drawn from.
- Help, banner, listing and configuration texts, and `round(..., 1)`. The quirk that a peak or average of 0 prints as N/A is display only.
- Floating-point rounding of `mean` and `stdev`: the model computes exactly.
- Anomaly.Judge: its own contract says only on which side of the mean a flagged count lies. The full threshold, `1.5 * avg` or `avg ± 2 * std`, is stated over the reals by `Anomaly.AssessFollowsRule` and `Anomaly.JudgeFollowsRule`, not by `Judge`'s contract.
- Text.ParseInt: Unicode digits and surrounding whitespace, which Python's `int()` also accepts, are not modelled. A token from `str.split()` has no whitespace.
- Text.ParseInt: Python 3.11 and later refuse a decimal string of more than 4300 digits with a `ValueError`; the model parses digit groups of any length, because the limit depends on the interpreter version and its settings.
- Text.IsSpace: the model lists the characters `str.isspace()` accepts; the Unicode database itself is not modelled.
- Queries.SortByTime: rows with equal timestamps keep insertion order, an order SQLite does not promise.
- Queries.DayOf: the calendar day of a UTC timestamp is `timestamp / 86400`, which matches `strftime('%Y-%m-%d', timestamp)` for the stored UTC times.
- The `FOREIGN KEY ... ON DELETE CASCADE` clause: no cascade is modelled, because foreign keys are never switched on.

=== FILE: anomaly.dfy ===
/**
  The anomaly rule of `detect_anomalies`, evaluated exactly over the
  integers. The newest count `c` is compared with the mean `avg = S / n`
  and the sample standard deviation `std` of the `n` counts before it.

  No square root is taken. Write `t = n * c - S`, which is `n` times the
  distance `c - avg`, and `Q = sum of (n * x - S)^2` over the baseline,
  which is `n^2 (n - 1)` times the sample variance. Then:
    - `std == 0` exactly when `Q == 0`;
    - `c > 1.5 * avg` exactly when `2 n c > 3 S`;
    - `c < avg` exactly when `t < 0`;
    - `c > avg + 2 std` exactly when `t > 0` and `t^2 (n - 1) > 4 Q`;
    - `c < avg - 2 std` exactly when `t < 0` and `t^2 (n - 1) > 4 Q`.
  `AssessFollowsRule` proves these facts, stating the rule over the reals
  as `Rule`.
*/
module Anomaly {
  import opened Store
  import opened Queries

  datatype Verdict =
    | Skipped   // fewer than 3 samples
    | Spike     // reported as a sudden rise
    | Drop      // reported as a sudden fall
    | Normal

  function Sum(xs: seq<int>): int
    decreases |xs|
  {
    if |xs| == 0 then 0 else xs[0] + Sum(xs[1..])
  }

  /** The sum of `(n * x - s)^2` over the values `x` of `xs`. */
  function SpreadAround(xs: seq<int>, n: int, s: int): (q: nat)
    decreases |xs|
  {
    if |xs| == 0 then 0
    else
      var e := n * xs[0] - s;
      e * e + SpreadAround(xs[1..], n, s)
  }

  /**
    `n^2 (n - 1)` times the sample variance of `xs` (the square of
    `statistics.stdev`), where `n = |xs|`.
  */
  function Spread(xs: seq<int>): nat {
    SpreadAround(xs, |xs|, Sum(xs))
  }

  /**
    The rule for a newest count `c` against a baseline of `n` counts with
    sum `s` and spread `q`. A flat baseline (`q == 0`) uses the `1.5 * avg`
    threshold and flags any count below the mean as a drop; otherwise a
    count more than two standard deviations away from the mean is flagged.
  */
  function Judge(n: int, s: int, c: int, q: int): (v: Verdict)
    ensures v != Skipped
    ensures v == Drop ==> n * c < s
    ensures v == Spike && s >= 0 ==> n * c > s
    ensures n * c == s && s >= 0 ==> v == Normal
  {
    var t := n * c - s;
    if q == 0 then
      if 2 * n * c > 3 * s then Spike
      else if t < 0 then Drop
      else Normal
    else if t > 0 && t * t * (n - 1) > 4 * q then Spike
    else if t < 0 && t * t * (n - 1) > 4 * q then Drop
    else Normal
  }

  /**
    The verdict for one server, given its counts newest first: skipped
    below three counts, otherwise the newest count judged against the
    baseline of the others.
  */
  function Assess(data: seq<int>): (v: Verdict)
    ensures v == Skipped <==> |data| < 3
  {
    if |data| < 3 then Skipped
    else
      var baseline := data[1..];
      Judge(|baseline|, Sum(baseline), data[0], Spread(baseline))
  }

  lemma {:induction false} SumOfConstant(xs: seq<int>, c: int)
    requires forall i :: 0 <= i < |xs| ==> xs[i] == c
    ensures Sum(xs) == |xs| * c
    decreases |xs|
  {
    if |xs| > 0 {
      SumOfConstant(xs[1..], c);
    }
  }

  lemma SquareZero(e: int)
    ensures e * e == 0 <==> e == 0
  {
    if e != 0 {
      assert e * e > 0;
    }
  }

  lemma CancelFactor(n: int, a: int, b: int)
    requires n > 0 && n * a == n * b
    ensures a == b
  {
  }

  /** The squared distances vanish exactly when every `n * x` equals `s`. */
  lemma {:induction false} SpreadAroundZero(xs: seq<int>, n: int, s: int)
    ensures SpreadAround(xs, n, s) == 0 <==> forall i :: 0 <= i < |xs| ==> n * xs[i] == s
    decreases |xs|
  {
    if |xs| > 0 {
      var tail := xs[1..];
      SpreadAroundZero(tail, n, s);
      var e := n * xs[0] - s;
      SquareZero(e);
      assert forall i :: 1 <= i < |xs| ==> xs[i] == tail[i - 1];
    }
  }

  /** The standard deviation of a baseline is zero exactly when all its counts are equal. */
  lemma SpreadZeroIffConstant(xs: seq<int>)
    requires |xs| > 0
    ensures Spread(xs) == 0 <==> forall i :: 0 <= i < |xs| ==> xs[i] == xs[0]
  {
    var n, s := |xs|, Sum(xs);
    SpreadAroundZero(xs, n, s);
    if forall i :: 0 <= i < |xs| ==> xs[i] == xs[0] {
      SumOfConstant(xs, xs[0]);
    }
    if forall i :: 0 <= i < |xs| ==> n * xs[i] == s {
      forall i | 0 <= i < |xs| ensures xs[i] == xs[0] {
        CancelFactor(n, xs[i], xs[0]);
      }
    }
  }

  /**
    With a baseline of equal counts `c` the deviation is zero: a spike is a
    count above `1.5 * c` and a drop is any count below `c`.
  */
  lemma ConstantBaseline(data: seq<int>, c: int)
    requires |data| >= 3
    requires forall i :: 1 <= i < |data| ==> data[i] == c
    ensures Assess(data) == if 2 * data[0] > 3 * c then Spike
                            else if data[0] < c then Drop
                            else Normal
  {
    var baseline := data[1..];
    var n := |baseline|;
    assert forall i :: 0 <= i < n ==> baseline[i] == c;
    SumOfConstant(baseline, c);
    SpreadZeroIffConstant(baseline);
    assert 2 * n * data[0] - 3 * (n * c) == n * (2 * data[0] - 3 * c);
    assert n * data[0] - n * c == n * (data[0] - c);
  }

  lemma MulMonotone(k: int, a: int, b: int)
    requires k >= 0 && a <= b
    ensures k * a <= k * b
  {
    assert k * b - k * a == k * (b - a);
  }

  lemma SquareMonotone(a: int, b: int)
    requires 0 <= a <= b
    ensures a * a <= b * b
  {
    MulMonotone(a, a, b);
    MulMonotone(b, a, b);
  }

  /** A larger distance from the mean passes the squared test whenever a smaller one does. */
  lemma ExceedsMonotone(t: int, t': int, m: int, q: int)
    requires 0 <= t <= t' && m >= 0
    requires t * t * m > q
    ensures t' * t' * m > q
  {
    SquareMonotone(t, t');
    MulMonotone(m, t * t, t' * t');
    assert t * t * m == m * (t * t) && t' * t' * m == m * (t' * t');
  }

  /** For a fixed baseline, a higher count is judged a spike whenever a lower one is. */
  lemma JudgeSpikeMonotone(n: int, s: int, c: int, higher: int, q: int)
    requires n > 0 && c <= higher && Judge(n, s, c, q) == Spike
    ensures Judge(n, s, higher, q) == Spike
  {
    MulMonotone(n, c, higher);
    if q == 0 {
      assert 2 * n * higher == 2 * (n * higher) && 2 * n * c == 2 * (n * c);
    } else {
      ExceedsMonotone(n * c - s, n * higher - s, n - 1, 4 * q);
    }
  }

  /** For a fixed baseline, a lower count is judged a drop whenever a higher one is. */
  lemma JudgeDropMonotone(n: int, s: int, c: int, lower: int, q: int)
    requires n > 0 && lower <= c && Judge(n, s, c, q) == Drop
    ensures Judge(n, s, lower, q) == Drop
  {
    MulMonotone(n, lower, c);
    var t, t' := n * c - s, n * lower - s;
    if q == 0 {
      assert 2 * n * lower == 2 * (n * lower) && 2 * n * c == 2 * (n * c);
    } else {
      ExceedsMonotone(-t, -t', n - 1, 4 * q);
      assert (-t) * (-t) == t * t && (-t') * (-t') == t' * t';
    }
  }

  /** A spike stays a spike when the newest count is higher. */
  lemma SpikeUpwardClosed(data: seq<int>, higher: int)
    requires |data| >= 3 && Assess(data) == Spike && higher >= data[0]
    ensures Assess([higher] + data[1..]) == Spike
  {
    var baseline := data[1..];
    assert ([higher] + baseline)[1..] == baseline;
    JudgeSpikeMonotone(|baseline|, Sum(baseline), data[0], higher, Spread(baseline));
  }

  /** A drop stays a drop when the newest count is lower. */
  lemma DropDownwardClosed(data: seq<int>, lower: int)
    requires |data| >= 3 && Assess(data) == Drop && lower <= data[0]
    ensures Assess([lower] + data[1..]) == Drop
  {
    var baseline := data[1..];
    assert ([lower] + baseline)[1..] == baseline;
    JudgeDropMonotone(|baseline|, Sum(baseline), data[0], lower, Spread(baseline));
  }

  /** Every count raised by `k`. */
  function Shift(xs: seq<int>, k: int): (r: seq<int>)
    ensures |r| == |xs|
    ensures forall i :: 0 <= i < |xs| ==> r[i] == xs[i] + k
  {
    seq(|xs|, i requires 0 <= i < |xs| => xs[i] + k)
  }

  lemma {:induction false} SumShift(xs: seq<int>, k: int)
    ensures Sum(Shift(xs, k)) == Sum(xs) + |xs| * k
    decreases |xs|
  {
    if |xs| > 0 {
      assert Shift(xs, k)[1..] == Shift(xs[1..], k);
      SumShift(xs[1..], k);
    }
  }

  lemma {:induction false} SpreadAroundShift(xs: seq<int>, n: int, s: int, k: int)
    ensures SpreadAround(Shift(xs, k), n, s + n * k) == SpreadAround(xs, n, s)
    decreases |xs|
  {
    if |xs| > 0 {
      assert Shift(xs, k)[1..] == Shift(xs[1..], k);
      assert n * (xs[0] + k) - (s + n * k) == n * xs[0] - s;
      SpreadAroundShift(xs[1..], n, s, k);
    }
  }

  /**
    Against a baseline that is not flat, the verdict depends only on the
    distances from the mean: raising every count by the same amount keeps it.
  */
  lemma ShiftKeepsVerdict(data: seq<int>, k: int)
    requires |data| >= 3
    requires exists i :: 1 <= i < |data| && data[i] != data[1]
    ensures Assess(Shift(data, k)) == Assess(data)
  {
    var baseline, baseline' := data[1..], Shift(data, k)[1..];
    assert baseline' == Shift(baseline, k);
    var n := |baseline|;
    SumShift(baseline, k);
    SpreadAroundShift(baseline, n, Sum(baseline), k);
    SpreadZeroIffConstant(baseline);
    assert Spread(baseline) != 0;
    assert n * (data[0] + k) - (Sum(baseline) + n * k) == n * data[0] - Sum(baseline);
  }

  /** Baseline 10,10,10,10,10: a count of 16 is a spike (above 15), 14 is not flagged. */
  lemma FlatBaselineExamples()
    ensures Assess([16, 10, 10, 10, 10, 10]) == Spike
    ensures Assess([14, 10, 10, 10, 10, 10]) == Normal
  {
    ConstantBaseline([16, 10, 10, 10, 10, 10], 10);
    ConstantBaseline([14, 10, 10, 10, 10, 10], 10);
  }

  /**
    Against a flat baseline the threshold is relative to the mean: the same
    rise of 6 is a spike over 10 and not over 20.
  */
  lemma FlatThresholdIsRelative()
    ensures Assess([16, 10, 10, 10]) == Spike
    ensures Assess([26, 20, 20, 20]) == Normal
  {
    ConstantBaseline([16, 10, 10, 10], 10);
    ConstantBaseline([26, 20, 20, 20], 20);
  }

  /** Baseline 10,10: a count of 9 is flagged as a drop although the deviation is zero. */
  lemma FlatBaselineDrop()
    ensures Assess([9, 10, 10]) == Drop
  {
    ConstantBaseline([9, 10, 10], 10);
  }

  /**
    Baseline 10,12,8,11,9 (mean 10, sample variance 2.5, standard deviation
    about 1.58): 20 is a spike, 3 a drop, and 13 (within 3.16 of the mean)
    is not flagged.
  */
  lemma SpreadBaselineExamples()
    ensures Assess([20, 10, 12, 8, 11, 9]) == Spike
    ensures Assess([3, 10, 12, 8, 11, 9]) == Drop
    ensures Assess([13, 10, 12, 8, 11, 9]) == Normal
  {
    var b := [10, 12, 8, 11, 9];
    assert [20, 10, 12, 8, 11, 9][1..] == b;
    assert [3, 10, 12, 8, 11, 9][1..] == b;
    assert [13, 10, 12, 8, 11, 9][1..] == b;
    assert Sum(b) == 50;
    assert Spread(b) == 250;
  }

  /** The mean of a non-empty list of counts, as `statistics.mean` gives it, in exact arithmetic. */
  function Mean(xs: seq<int>): real
    requires |xs| > 0
  {
    Sum(xs) as real / |xs| as real
  }

  /**
    The sum of the squared distances of the counts of `xs` from `m`. With
    `m` the mean, divided by `|xs| - 1`, it is the sample variance.
  */
  function SquaredDistances(xs: seq<int>, m: real): real
    decreases |xs|
  {
    if |xs| == 0 then 0.0
    else (xs[0] as real - m) * (xs[0] as real - m) + SquaredDistances(xs[1..], m)
  }

  /** `std` is what `statistics.stdev` returns for `xs`: non-negative, its square the sample variance. */
  predicate IsStdev(xs: seq<int>, std: real)
    requires |xs| > 1
  {
    std >= 0.0 && std * std * (|xs| - 1) as real == SquaredDistances(xs, Mean(xs))
  }

  /**
    The rule as `detect_anomalies` writes it, over exact reals: the
    threshold is `1.5 * avg` for a flat baseline and `avg + 2 * std`
    otherwise; a count above it is a rise, and otherwise a count below
    `avg - 2 * std` is a fall.
  */
  function Rule(current: real, avg: real, std: real): Verdict {
    var threshold := if std == 0.0 then avg * 1.5 else avg + 2.0 * std;
    if current > threshold then Spike
    else if current < avg - 2.0 * std then Drop
    else Normal
  }

  lemma MulCast(a: int, b: int)
    ensures (a * b) as real == a as real * b as real
  {
  }

  lemma ScaleStrict(k: real, x: real, y: real)
    requires k > 0.0
    ensures k * x > k * y <==> x > y
  {
    assert k * x - k * y == k * (x - y);
  }

  /** `SpreadAround` computed over the reals. */
  function RealSpreadAround(xs: seq<int>, n: real, s: real): real
    decreases |xs|
  {
    if |xs| == 0 then 0.0
    else (n * xs[0] as real - s) * (n * xs[0] as real - s) + RealSpreadAround(xs[1..], n, s)
  }

  lemma CastSquare(n: int, x: int, s: int)
    ensures ((n * x - s) * (n * x - s)) as real
         == (n as real * x as real - s as real) * (n as real * x as real - s as real)
  {
    MulCast(n, x);
    MulCast(n * x - s, n * x - s);
  }

  /** The integer spread, cast to a real, is the spread computed over the reals. */
  lemma {:induction false} SpreadAroundCast(xs: seq<int>, n: int, s: int)
    ensures SpreadAround(xs, n, s) as real == RealSpreadAround(xs, n as real, s as real)
    decreases |xs|
  {
    if |xs| > 0 {
      SpreadAroundCast(xs[1..], n, s);
      var e := n * xs[0] - s;
      var v := n as real * xs[0] as real - s as real;
      CastSquare(n, xs[0], s);
      CastSum(SpreadAround(xs, n, s), e * e, SpreadAround(xs[1..], n, s),
              RealSpreadAround(xs, n as real, s as real), v * v, RealSpreadAround(xs[1..], n as real, s as real));
    }
  }

  lemma CastSum(total: int, a: int, b: int, whole: real, x: real, y: real)
    requires total == a + b && whole == x + y
    requires a as real == x && b as real == y
    ensures total as real == whole
  {
  }

  lemma ScaleSquare(n: real, x: real, s: real, m: real)
    requires s == n * m
    ensures (n * x - s) * (n * x - s) == (n * n) * ((x - m) * (x - m))
  {
    var v := x - m;
    assert n * x - s == n * v;
  }

  /** The real spread around `s = n m` is `n^2` times the squared distances from `m`. */
  lemma {:induction false} RealSpreadScaled(xs: seq<int>, n: real, s: real, m: real)
    requires s == n * m
    ensures RealSpreadAround(xs, n, s) == (n * n) * SquaredDistances(xs, m)
    decreases |xs|
  {
    if |xs| > 0 {
      RealSpreadScaled(xs[1..], n, s, m);
      ScaleSquare(n, xs[0] as real, s, m);
      var u := (xs[0] as real - m) * (xs[0] as real - m);
      var rest := SquaredDistances(xs[1..], m);
      assert (n * n) * (u + rest) == (n * n) * u + (n * n) * rest;
    }
  }

  /** The integer spread is the real sum of squared distances scaled by `n^2`. */
  lemma SpreadAroundScaled(xs: seq<int>, n: int, s: int, m: real)
    requires s as real == n as real * m
    ensures SpreadAround(xs, n, s) as real == (n as real * n as real) * SquaredDistances(xs, m)
  {
    SpreadAroundCast(xs, n, s);
    RealSpreadScaled(xs, n as real, s as real, m);
  }

  lemma PositiveProduct(a: real, b: real)
    requires a > 0.0 && b > 0.0
    ensures a * b > 0.0
  {
  }

  /** A positive standard deviation makes the integer spread positive. */
  lemma PositiveSpread(q: int, nn: real, ss: real, std: real, k: real)
    requires nn > 0.0 && k > 0.0 && std > 0.0
    requires q as real == nn * ss && ss == std * std * k
    ensures q > 0
  {
    PositiveProduct(std, k);
    PositiveProduct(std, std * k);
    assert std * std * k == std * (std * k);
    PositiveProduct(nn, ss);
  }

  /** A distance passes the squared test exactly when it is more than twice `std`. */
  lemma BeyondTwoStd(d: real, std: real, k: real, ss: real)
    requires std > 0.0 && k > 0.0 && std * std * k == ss
    ensures d > 2.0 * std <==> d > 0.0 && d * d * k > 4.0 * ss
  {
    var w := 2.0 * std;
    assert 4.0 * ss == k * (w * w);
    assert d * d * k == k * (d * d);
    ScaleStrict(k, d * d, w * w);
    if d > w {
      assert d * d - w * w == (d - w) * (d + w);
    }
  }

  /** The integer squared test and its real counterpart agree once `t = n d` and `q = n^2 ss`. */
  lemma SquareTestScaled(n: int, t: int, q: int, d: real, ss: real)
    requires n > 0
    requires t as real == n as real * d
    requires q as real == (n as real * n as real) * ss
    ensures t * t * (n - 1) > 4 * q <==> d * d * (n - 1) as real > 4.0 * ss
  {
    var nn := n as real * n as real;
    MulCast(t, t);
    MulCast(t * t, n - 1);
    MulCast(4, q);
    var nd := n as real * d;
    assert (t * t * (n - 1)) as real == nd * nd * (n - 1) as real;
    assert nd * nd * (n - 1) as real == nn * (d * d * (n - 1) as real);
    assert (4 * q) as real == nn * (4.0 * ss);
    ScaleStrict(nn, d * d * (n - 1) as real, 4.0 * ss);
  }

  /** The rule on a baseline that is not flat, with the square root squared away. */
  lemma SpreadRule(c: real, avg: real, std: real, k: real, ss: real)
    requires std > 0.0 && k > 0.0 && ss == std * std * k
    ensures var d := c - avg;
            Rule(c, avg, std) == if d > 0.0 && d * d * k > 4.0 * ss then Spike
                                 else if d < 0.0 && d * d * k > 4.0 * ss then Drop
                                 else Normal
  {
    var d := c - avg;
    BeyondTwoStd(d, std, k, ss);
    BeyondTwoStd(-d, std, k, ss);
    assert (-d) * (-d) == d * d;
  }

  /** `n` times the distance of `c` from the mean is `n c - s`. */
  lemma ScaledDistance(n: int, s: int, avg: real, c: int)
    requires s as real == n as real * avg
    ensures (n * c - s) as real == n as real * (c as real - avg)
  {
    MulCast(n, c);
  }

  /** The test of `Judge` on a baseline that is not flat, in real terms. */
  lemma SpreadJudge(n: int, s: int, avg: real, c: int, q: int, std: real, ss: real)
    requires n > 1 && q != 0 && std > 0.0 && s as real == n as real * avg
    requires ss == std * std * (n - 1) as real
    requires q as real == (n as real * n as real) * ss
    ensures Judge(n, s, c, q) == Rule(c as real, avg, std)
  {
    var d := c as real - avg;
    var t := n * c - s;
    ScaledDistance(n, s, avg, c);
    SquareTestScaled(n, t, q, d, ss);
    SpreadRule(c as real, avg, std, (n - 1) as real, ss);
  }

  /** `2 n c > 3 s` is the test `c > 1.5 * avg` with `avg = s / n`. */
  lemma AboveHalfAgain(n: int, s: int, avg: real, c: int)
    requires n > 0 && s as real == n as real * avg
    ensures 2 * n * c > 3 * s <==> c as real > avg * 1.5
  {
    MulCast(2 * n, c);
    assert (2 * n * c) as real == 2.0 * n as real * c as real;
    assert (3 * s) as real == 2.0 * n as real * (avg * 1.5);
    ScaleStrict(2.0 * n as real, c as real, avg * 1.5);
  }

  /** `n c < s` is the test `c < avg` with `avg = s / n`. */
  lemma BelowMean(n: int, s: int, avg: real, c: int)
    requires n > 0 && s as real == n as real * avg
    ensures n * c - s < 0 <==> c as real < avg
  {
    MulCast(n, c);
    ScaleStrict(n as real, avg, c as real);
  }

  /** The test of `Judge` on a flat baseline, in real terms. */
  lemma FlatJudge(n: int, s: int, avg: real, c: int)
    requires n > 0 && s as real == n as real * avg
    ensures Judge(n, s, c, 0) == Rule(c as real, avg, 0.0)
  {
    AboveHalfAgain(n, s, avg, c);
    BelowMean(n, s, avg, c);
  }

  /**
    The integers `n`, `s` and `q` that `Assess` computes from a baseline
    (its size, sum and spread) agree with the baseline's mean `avg` and
    standard deviation `std`; `ss` is the sum of squared distances from
    the mean.
  */
  predicate Summarizes(n: int, s: int, q: int, avg: real, std: real, ss: real) {
    && n > 1 && std >= 0.0
    && s as real == n as real * avg
    && ss == std * std * (n - 1) as real
    && q as real == (n as real * n as real) * ss
  }

  /** `Judge` on a baseline of `n` counts whose squared distances from the mean sum to `ss`. */
  lemma JudgeFollowsRule(n: int, s: int, q: int, avg: real, std: real, ss: real, c: int)
    requires Summarizes(n, s, q, avg, std, ss)
    ensures Judge(n, s, c, q) == Rule(c as real, avg, std)
  {
    if std == 0.0 {
      assert ss == 0.0;
      FlatJudge(n, s, avg, c);
    } else {
      PositiveSpread(q, n as real * n as real, ss, std, (n - 1) as real);
      SpreadJudge(n, s, avg, c, q, std, ss);
    }
  }

  lemma MeanTimesCount(xs: seq<int>)
    requires |xs| > 0
    ensures Sum(xs) as real == |xs| as real * Mean(xs)
  {
  }

  /** The size, sum and spread of a baseline summarize its mean and standard deviation. */
  lemma BaselineSummary(b: seq<int>, std: real)
    requires |b| > 1 && IsStdev(b, std)
    ensures Summarizes(|b|, Sum(b), Spread(b), Mean(b), std, SquaredDistances(b, Mean(b)))
  {
    MeanTimesCount(b);
    SpreadAroundScaled(b, |b|, Sum(b), Mean(b));
  }

  /** `Judge` on a baseline of at least two counts is the rule with their mean and standard deviation. */
  lemma BaselineRule(b: seq<int>, c: int, std: real)
    requires |b| > 1 && IsStdev(b, std)
    ensures Judge(|b|, Sum(b), c, Spread(b)) == Rule(c as real, Mean(b), std)
  {
    BaselineSummary(b, std);
    JudgeFollowsRule(|b|, Sum(b), Spread(b), Mean(b), std, SquaredDistances(b, Mean(b)), c);
  }

  /**
    `Assess` is the rule as the code writes it, with the mean and the sample
    standard deviation of the counts before the newest one: a spike above
    `1.5 * avg` when the deviation is zero and above `avg + 2 * std`
    otherwise, and else a drop below `avg - 2 * std`.
  */
  lemma AssessFollowsRule(data: seq<int>, std: real)
    requires |data| >= 3 && IsStdev(data[1..], std)
    ensures Assess(data) == Rule(data[0] as real, Mean(data[1..]), std)
  {
    BaselineRule(data[1..], data[0], std);
  }

  /**
    `detect_anomalies`: a verdict for every registered server, in listing
    order, from its latest six counts newest first.
  */
  function DetectAnomalies(st: Store): (r: seq<(Server, Verdict)>)
    ensures |r| == |st.servers|
    ensures forall i :: 0 <= i < |r| ==> r[i].0 == st.servers[i]
    ensures forall i :: 0 <= i < |r| ==>
              (r[i].1 == Skipped <==> |History(st, st.servers[i].name)| < 3)
    ensures forall i :: 0 <= i < |r| ==> r[i].1 == Assess(RecentCounts(st, st.servers[i].name))
  {
    seq(|st.servers|, i requires 0 <= i < |st.servers| =>
      (st.servers[i], VerdictOf(st, st.servers[i].name)))
  }

  /** The verdict on one server: skipped exactly when its history holds fewer than three samples. */
  function VerdictOf(st: Store, name: string): (v: Verdict)
    ensures v == Assess(RecentCounts(st, name))
    ensures v == Skipped <==> |History(st, name)| < 3
  {
    Assess(RecentCounts(st, name))
  }

  /**
    A flagged server had at least three counts, and its newest count (the
    count of a latest sample, by `NewestCountIsCurrent`) lies below the
    mean of the counts before it for a drop and, with non-negative counts,
    above it for a spike.
  */
  lemma FlaggedAgainstMean(st: Store, i: int)
    requires 0 <= i < |st.servers|
    requires DetectAnomalies(st)[i].1 == Spike || DetectAnomalies(st)[i].1 == Drop
    ensures var name := st.servers[i].name;
            var data := RecentCounts(st, name);
            && |data| >= 3
            && (DetectAnomalies(st)[i].1 == Drop ==> |data[1..]| * data[0] < Sum(data[1..]))
            && (DetectAnomalies(st)[i].1 == Spike && Sum(data[1..]) >= 0 ==> |data[1..]| * data[0] > Sum(data[1..]))
  {
    var name := st.servers[i].name;
    var data := RecentCounts(st, name);
    assert DetectAnomalies(st)[i].1 == Assess(data);
    FlaggedCount(data);
  }

  /** A flagged newest count is on the side of the baseline mean its verdict names. */
  lemma FlaggedCount(data: seq<int>)
    requires Assess(data) == Spike || Assess(data) == Drop
    ensures |data| >= 3
    ensures Assess(data) == Drop ==> |data[1..]| * data[0] < Sum(data[1..])
    ensures Assess(data) == Spike && Sum(data[1..]) >= 0 ==> |data[1..]| * data[0] > Sum(data[1..])
  {
    var b := data[1..];
    assert Assess(data) == Judge(|b|, Sum(b), data[0], Spread(b));
  }
}

=== FILE: commands.dfy ===
/**
  The console command interpreter: how `_execute_command` routes a command
  line and what each `_handle_*` method does with it. A command line here
  is what the input thread queues: already stripped, lower-cased and
  non-empty. Printed messages are replaced by a `Reply` value.
*/
module Commands {
  import opened Optional
  import opened Seqs
  import opened Text
  import opened Store
  import opened Queries

  /** The seconds between two polling rounds (`CONFIG['interval']`). */
  const Interval: int := 300

  /** The branch of `_execute_command` a command line takes. */
  datatype Route =
    | ExitRoute
    | HelpRoute
    | NowRoute
    | ListRoute
    | AddRoute
    | RemoveRoute
    | DeleteRoute
    | ReportRoute
    | TrendRoute
    | ConfigRoute
    | UnknownRoute

  /**
    `_execute_command`'s tests in order: four exact matches, five prefixes
    (so `addr` is an add and `reporting` a report), one more exact match,
    and everything else is unknown. No line passes two of the tests, so
    each route is characterised by its own test alone.
  */
  function RouteOf(cmd: string): (r: Route)
    ensures r == ExitRoute <==> cmd == "exit"
    ensures r == HelpRoute <==> cmd == "help"
    ensures r == NowRoute <==> cmd == "now"
    ensures r == ListRoute <==> cmd == "list"
    ensures r == AddRoute <==> StartsWith(cmd, "add")
    ensures r == RemoveRoute <==> StartsWith(cmd, "remove")
    ensures r == DeleteRoute <==> StartsWith(cmd, "delete")
    ensures r == ReportRoute <==> StartsWith(cmd, "report")
    ensures r == TrendRoute <==> StartsWith(cmd, "trend")
    ensures r == ConfigRoute <==> cmd == "config"
    ensures r == UnknownRoute <==> && cmd !in {"exit", "help", "now", "list", "config"}
                                   && !StartsWith(cmd, "add") && !StartsWith(cmd, "remove")
                                   && !StartsWith(cmd, "delete") && !StartsWith(cmd, "report")
                                   && !StartsWith(cmd, "trend")
  {
    PrefixLetters(cmd);
    if cmd == "exit" then ExitRoute
    else if cmd == "help" then HelpRoute
    else if cmd == "now" then NowRoute
    else if cmd == "list" then ListRoute
    else if StartsWith(cmd, "add") then AddRoute
    else if StartsWith(cmd, "remove") then RemoveRoute
    else if StartsWith(cmd, "delete") then DeleteRoute
    else if StartsWith(cmd, "report") then ReportRoute
    else if StartsWith(cmd, "trend") then TrendRoute
    else if cmd == "config" then ConfigRoute
    else UnknownRoute
  }

  /**
    The letters the prefix tests fix. They set the five prefixes apart
    from one another and from the exact words.
  */
  lemma PrefixLetters(cmd: string)
    ensures StartsWith(cmd, "add") ==> cmd[0] == 'a'
    ensures StartsWith(cmd, "remove") ==> cmd[0] == 'r' && cmd[2] == 'm'
    ensures StartsWith(cmd, "delete") ==> cmd[0] == 'd'
    ensures StartsWith(cmd, "report") ==> cmd[0] == 'r' && cmd[2] == 'p'
    ensures StartsWith(cmd, "trend") ==> cmd[0] == 't'
  {
    if StartsWith(cmd, "add") {
      assert cmd[..3][0] == cmd[0];
    }
    if StartsWith(cmd, "remove") {
      assert cmd[..6][0] == cmd[0] && cmd[..6][2] == cmd[2];
    }
    if StartsWith(cmd, "delete") {
      assert cmd[..6][0] == cmd[0];
    }
    if StartsWith(cmd, "report") {
      assert cmd[..6][0] == cmd[0] && cmd[..6][2] == cmd[2];
    }
    if StartsWith(cmd, "trend") {
      assert cmd[..5][0] == cmd[0];
    }
  }

  /** A line whose first letter is not the first letter of `p` does not start with `p`. */
  lemma FirstLetterDiffers(s: string, p: string)
    requires |s| > 0 && |p| > 0 && s[0] != p[0]
    ensures !StartsWith(s, p)
  {
    if |p| <= |s| {
      assert s[..|p|][0] == s[0];
    }
  }

  /** What the monitor prints in answer to one command. */
  datatype Reply =
    | Stopping                                   // `exit`
    | HelpText
    | Live(results: seq<(Server, Option<int>)>)  // `now`; empty when no server is registered
    | Listing(servers: seq<Server>)              // `list`; empty when no server is registered
    | Usage(route: Route)                        // wrong number of words
    | AddResult(outcome: AddOutcome)
    | RemoveResult(found: bool)
    | DeleteResult(deleted: Option<nat>)         // `None`: no such server
    | BadDays                                    // the days word is not an integer
    | ReportRows(rows: seq<(Server, Summary)>)
    | UnknownServers(names: seq<string>)
    | Chart(series: seq<(string, seq<Sample>)>)
    | ConfigShown(interval: int, neverDelete: bool)
    | UnknownCommand

  /** The environment a command runs in: the status query, UTC now, and the retention switch. */
  datatype Env = Env(probe: Probe, now: int, neverDelete: bool)

  /** `real_time_query`: every registered server with its live count or failure. */
  function LiveQuery(st: Store, probe: Probe): (r: seq<(Server, Option<int>)>)
    ensures |r| == |st.servers|
    ensures forall i :: 0 <= i < |r| ==> r[i] == (st.servers[i], probe(st.servers[i].ip))
  {
    seq(|st.servers|, i requires 0 <= i < |st.servers| => (st.servers[i], probe(st.servers[i].ip)))
  }

  /** Selects the names no registered server carries. */
  function NotRegistered(st: Store): string -> bool {
    (name: string) => !HasName(st.servers, name)
  }

  /** The names in `names` that no registered server carries, in order. */
  function Unregistered(st: Store, names: seq<string>): (r: seq<string>)
    ensures r == Filter(NotRegistered(st), names)
    ensures forall k :: 0 <= k < |r| ==> r[k] in names && !HasName(st.servers, r[k])
    ensures forall k :: 0 <= k < |names| && !HasName(st.servers, names[k]) ==> names[k] in r
    ensures r == [] <==> forall k :: 0 <= k < |names| ==> HasName(st.servers, names[k])
    decreases |names|
  {
    if |names| == 0 then []
    else
      var rest := Unregistered(st, names[1..]);
      assert forall k :: 1 <= k < |names| ==> names[k] == names[1..][k - 1];
      if HasName(st.servers, names[0]) then rest else [names[0]] + rest
  }

  /**
    `_handle_add`: exactly a name and an address after the command word.
    The server is registered exactly when it answers and neither its name
    nor its address is taken; anything else leaves the store as it was.
  */
  function HandleAdd(st: Store, cmd: string, env: Env): (r: (Store, Reply))
    ensures r.1 == Usage(AddRoute) <==> |Split(cmd)| != 3
    ensures |Split(cmd)| == 3 ==> var name, ip := Split(cmd)[1], Split(cmd)[2];
              && r.1.AddResult?
              && (r.1.outcome == Added <==> env.probe(ip).Some? && !HasName(st.servers, name) && !HasIp(st.servers, ip))
              && (r.1.outcome == Added ==> r.0.servers == st.servers + [Server(st.nextId, name, ip)] && r.0.samples == st.samples)
    ensures r.1 != AddResult(Added) ==> r.0 == st
    ensures Valid(st) ==> Valid(r.0)
  {
    var parts := Split(cmd);
    if |parts| != 3 then (st, Usage(AddRoute))
    else
      var (st', outcome) := AddServer(st, parts[1], parts[2], env.probe);
      (st', AddResult(outcome))
  }

  /**
    `_handle_remove`: exactly a name after the command word. It reports
    whether the name was registered, and afterwards it is not.
  */
  function HandleRemove(st: Store, cmd: string): (r: (Store, Reply))
    ensures r.1 == Usage(RemoveRoute) <==> |Split(cmd)| != 2
    ensures r.1 == Usage(RemoveRoute) ==> r.0 == st
    ensures |Split(cmd)| == 2 ==> r.1 == RemoveResult(HasName(st.servers, Split(cmd)[1]))
    ensures |Split(cmd)| == 2 ==> !HasName(r.0.servers, Split(cmd)[1])
    ensures |Split(cmd)| == 2 ==> r == (RemoveServer(st, Split(cmd)[1]).0, RemoveResult(RemoveServer(st, Split(cmd)[1]).1))
    ensures r.0.samples == st.samples
    ensures Valid(st) ==> Valid(r.0)
  {
    var parts := Split(cmd);
    if |parts| != 2 then (st, Usage(RemoveRoute))
    else
      var (st', found) := RemoveServer(st, parts[1]);
      (st', RemoveResult(found))
  }

  /**
    `_handle_delete`: exactly a name after the command word. An unknown
    name deletes nothing; a known one loses all its samples and keeps its
    registration.
  */
  function HandleDelete(st: Store, cmd: string): (r: (Store, Reply))
    ensures r.1 == Usage(DeleteRoute) <==> |Split(cmd)| != 2
    ensures r.1 == Usage(DeleteRoute) ==> r.0 == st
    ensures r.0.servers == st.servers
    ensures |Split(cmd)| == 2 && !HasName(st.servers, Split(cmd)[1]) ==> r == (st, DeleteResult(None))
    ensures |Split(cmd)| == 2 && Valid(st) && HasName(st.servers, Split(cmd)[1]) ==>
              && r.1.DeleteResult? && r.1.deleted.Some?
              && forall k :: 0 <= k < |r.0.samples| ==> r.0.samples[k].serverId != IdOf(st.servers, Split(cmd)[1]).value
    ensures |Split(cmd)| == 2 ==> r == (DeleteServerData(st, Split(cmd)[1]).0, DeleteResult(DeleteServerData(st, Split(cmd)[1]).1))
    ensures Valid(st) ==> Valid(r.0)
  {
    var parts := Split(cmd);
    if |parts| != 2 then (st, Usage(DeleteRoute))
    else
      var (st', deleted) := DeleteServerData(st, parts[1]);
      (st', DeleteResult(deleted))
  }

  /**
    `_handle_report`: the days word is optional and defaults to 1; words
    after it are ignored; a days word that is not an integer is an error.
  */
  function HandleReport(st: Store, cmd: string, env: Env): (r: Reply)
    ensures r == BadDays <==> |Split(cmd)| > 1 && ParseInt(Split(cmd)[1]).None?
    ensures |Split(cmd)| <= 1 ==> r == ReportRows(Report(st, env.now, 1))
    ensures |Split(cmd)| > 1 && ParseInt(Split(cmd)[1]).Some? ==>
              r == ReportRows(Report(st, env.now, ParseInt(Split(cmd)[1]).value))
  {
    var parts := Split(cmd);
    var days := if |parts| > 1 then ParseInt(parts[1]) else Some(1);
    match days
    case None => BadDays
    case Some(d) => ReportRows(Report(st, env.now, d))
  }

  /**
    `_handle_trend`: a days word and at least one name. The days word is
    parsed first; then every name must be registered, and one unknown name
    rejects the whole command. Each name gets its window in time order.
  */
  function HandleTrend(st: Store, cmd: string, env: Env): (r: Reply)
    ensures r == Usage(TrendRoute) <==> |Split(cmd)| < 3
    ensures r == BadDays <==> |Split(cmd)| >= 3 && ParseInt(Split(cmd)[1]).None?
    ensures r.Chart? <==> && |Split(cmd)| >= 3 && ParseInt(Split(cmd)[1]).Some?
                          && forall k :: 2 <= k < |Split(cmd)| ==> HasName(st.servers, Split(cmd)[k])
    ensures r.Chart? ==> && |r.series| == |Split(cmd)| - 2
                         && forall k :: 0 <= k < |r.series| ==>
                              r.series[k] == (Split(cmd)[k + 2], Series(st, Split(cmd)[k + 2], WindowStart(env.now, ParseInt(Split(cmd)[1]).value)))
    ensures r.UnknownServers? ==> r.names == Unregistered(st, Split(cmd)[2..]) && |r.names| > 0
  {
    var parts := Split(cmd);
    if |parts| < 3 then Usage(TrendRoute)
    else
      match ParseInt(parts[1])
      case None => BadDays
      case Some(days) =>
        var names := parts[2..];
        var invalid := Unregistered(st, names);
        if |invalid| > 0 then UnknownServers(invalid)
        else
          var start := WindowStart(env.now, days);
          Chart(seq(|names|, k requires 0 <= k < |names| => (names[k], Series(st, names[k], start))))
  }

  /**
    `_execute_command` on a queued command line: the store afterwards and
    the reply. Only `add`, `remove` and `delete` can write to the store.
  */
  function Execute(st: Store, cmd: string, env: Env): (r: (Store, Reply))
    ensures RouteOf(cmd) !in {AddRoute, RemoveRoute, DeleteRoute} ==> r.0 == st
    ensures r.1 == Stopping <==> cmd == "exit"
    ensures Valid(st) ==> Valid(r.0)
    ensures RouteOf(cmd) == HelpRoute ==> r.1 == HelpText
    ensures RouteOf(cmd) == NowRoute ==> r.1 == Live(LiveQuery(st, env.probe))
    ensures RouteOf(cmd) == ListRoute ==> r.1 == Listing(st.servers)
    ensures RouteOf(cmd) == ConfigRoute ==> r.1 == ConfigShown(Interval, env.neverDelete)
  {
    match RouteOf(cmd)
    case ExitRoute => (st, Stopping)
    case HelpRoute => (st, HelpText)
    case NowRoute => (st, Live(LiveQuery(st, env.probe)))
    case ListRoute => (st, Listing(st.servers))
    case AddRoute => HandleAdd(st, cmd, env)
    case RemoveRoute => HandleRemove(st, cmd)
    case DeleteRoute => HandleDelete(st, cmd)
    case ReportRoute => (st, HandleReport(st, cmd, env))
    case TrendRoute => (st, HandleTrend(st, cmd, env))
    case ConfigRoute => (st, ConfigShown(Interval, env.neverDelete))
    case UnknownRoute => (st, UnknownCommand)
  }

  /** A command the interpreter does not know is answered as such and changes nothing. */
  lemma UnknownChangesNothing(st: Store, cmd: string, env: Env)
    requires cmd !in {"exit", "help", "now", "list", "config"}
    requires forall w :: w in {"add", "remove", "delete", "report", "trend"} ==> !StartsWith(cmd, w)
    ensures Execute(st, cmd, env) == (st, UnknownCommand)
  {
    assert !StartsWith(cmd, "add") && !StartsWith(cmd, "remove") && !StartsWith(cmd, "delete");
    assert !StartsWith(cmd, "report") && !StartsWith(cmd, "trend");
  }

  /** The prefixes win over the later exact match and over any continuation of the word. */
  lemma PrefixRoutes()
    ensures RouteOf("addr x y") == AddRoute
    ensures RouteOf("reporting") == ReportRoute
    ensures RouteOf("removeall") == RemoveRoute
    ensures RouteOf("deleted x") == DeleteRoute
    ensures RouteOf("trends 7 a") == TrendRoute
    ensures RouteOf("configure") == UnknownRoute
    ensures RouteOf("exit now") == UnknownRoute
  {
    assert "addr x y"[..3] == "add";
    assert "reporting"[..6] == "report";
    assert "removeall"[..6] == "remove";
    assert "deleted x"[..6] == "delete";
    assert "trends 7 a"[..5] == "trend";
    FirstLetterDiffers("configure", "add");
    FirstLetterDiffers("configure", "remove");
    FirstLetterDiffers("configure", "delete");
    FirstLetterDiffers("configure", "report");
    FirstLetterDiffers("configure", "trend");
    FirstLetterDiffers("exit now", "add");
    FirstLetterDiffers("exit now", "remove");
    FirstLetterDiffers("exit now", "delete");
    FirstLetterDiffers("exit now", "report");
    FirstLetterDiffers("exit now", "trend");
  }

  /**
    Any command line whose words are `add`, a name and an address (the
    words joined by single spaces) registers exactly as `add_server` does.
  */
  lemma AddCommandAdds(st: Store, name: string, ip: string, env: Env)
    requires IsToken(name) && IsToken(ip)
    ensures var cmd := Unsplit(["add", name, ip]);
            Execute(st, cmd, env) == (AddServer(st, name, ip, env.probe).0, AddResult(AddServer(st, name, ip, env.probe).1))
  {
    var words := ["add", name, ip];
    assert IsToken("add");
    SplitUnsplit(words);
    var cmd := Unsplit(words);
    assert cmd == "add" + " " + Unsplit([name, ip]);
    assert cmd[..3] == "add";
  }

  /** `remove <name>` unregisters exactly as removing the server directly does. */
  lemma RemoveCommandRemoves(st: Store, name: string, env: Env)
    requires IsToken(name)
    ensures Execute(st, Unsplit(["remove", name]), env) == (RemoveServer(st, name).0, RemoveResult(RemoveServer(st, name).1))
  {
    var words := ["remove", name];
    assert IsToken("remove");
    SplitUnsplit(words);
    var cmd := Unsplit(words);
    assert cmd == "remove" + " " + name;
    assert cmd[..6] == "remove";
  }

  /** `delete <name>` deletes the samples exactly as deleting them directly does. */
  lemma DeleteCommandDeletes(st: Store, name: string, env: Env)
    requires IsToken(name)
    ensures Execute(st, Unsplit(["delete", name]), env) == (DeleteServerData(st, name).0, DeleteResult(DeleteServerData(st, name).1))
  {
    var words := ["delete", name];
    assert IsToken("delete");
    SplitUnsplit(words);
    var cmd := Unsplit(words);
    assert cmd == "delete" + " " + name;
    assert cmd[..6] == "delete";
  }

  /** An `add` line without exactly a name and an address is a usage error and changes nothing. */
  lemma AddArity(st: Store, cmd: string, env: Env)
    requires StartsWith(cmd, "add") && |Split(cmd)| != 3
    ensures Execute(st, cmd, env) == (st, Usage(AddRoute))
  {
  }

  /** `remove` and `delete` need exactly one name; otherwise a usage error and no change. */
  lemma RemoveDeleteArity(st: Store, cmd: string, env: Env)
    requires |Split(cmd)| != 2
    ensures RouteOf(cmd) == RemoveRoute ==> Execute(st, cmd, env) == (st, Usage(RemoveRoute))
    ensures RouteOf(cmd) == DeleteRoute ==> Execute(st, cmd, env) == (st, Usage(DeleteRoute))
  {
  }

  /** A report line of a single word (`report`, `reports`) reports the last day. */
  lemma ReportDefaultsToOneDay(st: Store, cmd: string, env: Env)
    requires StartsWith(cmd, "report") && |Split(cmd)| == 1
    ensures Execute(st, cmd, env) == (st, ReportRows(Report(st, env.now, 1)))
  {
  }

  /** A decimal integer is a single word. */
  lemma ShowIntIsToken(n: int)
    ensures IsToken(ShowInt(n))
  {
    var word := ShowInt(n);
    var digits := ShowNat(if n < 0 then -n else n);
    assert forall i :: 0 <= i < |digits| ==> !IsSpace(digits[i]);
    if n < 0 {
      assert forall i :: 1 <= i < |word| ==> word[i] == digits[i - 1];
    }
  }

  /** `report <n>` reports the last `n` days for any integer `n` written in decimal. */
  lemma ReportWithDays(st: Store, days: int, env: Env)
    ensures Execute(st, Unsplit(["report", ShowInt(days)]), env) == (st, ReportRows(Report(st, env.now, days)))
  {
    var word := ShowInt(days);
    ShowIntIsToken(days);
    assert IsToken("report");
    SplitUnsplit(["report", word]);
    var cmd := Unsplit(["report", word]);
    assert cmd == "report" + (" " + word);
    assert cmd[..6] == "report";
    assert RouteOf(cmd) == ReportRoute;
    ParseShowInt(days);
    assert Split(cmd)[1] == word;
    assert HandleReport(st, cmd, env) == ReportRows(Report(st, env.now, days));
  }

  /** A days word that is not an integer is rejected by `report` and `trend`, and nothing is written. */
  lemma BadDaysRejected(st: Store, cmd: string, env: Env)
    requires RouteOf(cmd) == ReportRoute || (RouteOf(cmd) == TrendRoute && |Split(cmd)| >= 3)
    requires |Split(cmd)| > 1 && ParseInt(Split(cmd)[1]).None?
    ensures Execute(st, cmd, env) == (st, BadDays)
  {
  }

  /** A `trend` line without a days word and at least one name is a usage error and changes nothing. */
  lemma TrendArity(st: Store, cmd: string, env: Env)
    requires StartsWith(cmd, "trend") && |Split(cmd)| < 3
    ensures Execute(st, cmd, env) == (st, Usage(TrendRoute))
  {
  }

  /**
    `trend` with a valid days word draws one line per named server, each
    from that server's window in time order, exactly when every name is
    registered; otherwise it names every unknown one and draws nothing.
  */
  lemma TrendAllOrNothing(st: Store, cmd: string, env: Env)
    requires RouteOf(cmd) == TrendRoute && |Split(cmd)| >= 3 && ParseInt(Split(cmd)[1]).Some?
    ensures var names := Split(cmd)[2..];
            var start := WindowStart(env.now, ParseInt(Split(cmd)[1]).value);
            var r := Execute(st, cmd, env).1;
            && (r.Chart? <==> forall k :: 0 <= k < |names| ==> HasName(st.servers, names[k]))
            && (r.Chart? ==> |r.series| == |names| && forall k :: 0 <= k < |names| ==> r.series[k] == (names[k], Series(st, names[k], start)))
            && (r.UnknownServers? ==> && |r.names| > 0
                                      && (forall k :: 0 <= k < |r.names| ==> !HasName(st.servers, r.names[k]))
                                      && (forall k :: 0 <= k < |names| && !HasName(st.servers, names[k]) ==> names[k] in r.names))
  {
    var parts := Split(cmd);
    var names := parts[2..];
    var invalid := Unregistered(st, names);
    var start := WindowStart(env.now, ParseInt(parts[1]).value);
    assert Execute(st, cmd, env).1 == HandleTrend(st, cmd, env);
    assert HandleTrend(st, cmd, env) == if |invalid| > 0 then UnknownServers(invalid)
      else Chart(seq(|names|, k requires 0 <= k < |names| => (names[k], Series(st, names[k], start))));
  }
}

=== FILE: optional.dfy ===
/** A value that may be absent: SQL NULL, Python None, or a failed lookup. */
module Optional {

  datatype Option<+T> = None | Some(value: T)
}

=== FILE: queries.dfy ===
/**
  The read side of the store: one server's history through the
  `stats JOIN servers` queries, the time windows `datetime('now', '-N
  days')` selects, the report aggregate, the time-ordered series the trend
  chart plots, and the newest samples the anomaly check reads.
*/
module Queries {
  import opened Optional
  import opened Seqs
  import opened Store

  /** Selects the samples tagged with `id`. */
  function Of(id: nat): Sample -> bool {
    (s: Sample) => s.serverId == id
  }

  /** Selects the samples stored strictly after `start`. */
  function After(start: int): Sample -> bool {
    (s: Sample) => s.timestamp > start
  }

  /**
    The samples `stats JOIN servers ON servers.id = stats.server_id WHERE
    servers.name = ?` returns, in insertion order. Samples left behind by a
    removed server join no row and are never returned.
  */
  function History(st: Store, name: string): (r: seq<Sample>)
    ensures forall k :: 0 <= k < |r| ==> r[k] in st.samples
    ensures !HasName(st.servers, name) ==> r == []
    ensures Valid(st) ==> forall s :: s in r <==>
              s in st.samples && exists i :: 0 <= i < |st.servers| && st.servers[i].name == name && st.servers[i].id == s.serverId
  {
    match IdOf(st.servers, name)
    case None => []
    case Some(id) =>
      var r := Filter(Of(id), st.samples);
      assert forall s :: s in r <==> s in st.samples && s.serverId == id by {
        forall s ensures s in r <==> s in st.samples && s.serverId == id {
          FilterMembership(Of(id), st.samples, s);
        }
      }
      assert Valid(st) ==> forall s :: s in r <==>
               s in st.samples && exists i :: 0 <= i < |st.servers| && st.servers[i].name == name && st.servers[i].id == s.serverId by {
        if Valid(st) {
          forall i | 0 <= i < |st.servers| && st.servers[i].name == name ensures st.servers[i].id == id {
            IdOfRegistered(st, i);
          }
        }
      }
      r
  }

  /**
    The join keeps every copy of a matching sample: a sample occurs in the
    history as often as it is stored, when it carries the name's id.
  */
  lemma HistoryMultiplicity(st: Store, name: string, s: Sample)
    requires IdOf(st.servers, name).Some?
    ensures multiset(History(st, name))[s] ==
              if s.serverId == IdOf(st.servers, name).value then multiset(st.samples)[s] else 0
  {
    FilterMultiset(Of(IdOf(st.servers, name).value), st.samples, s);
  }

  /** SQLite refuses a `days` modifier of this magnitude or more. */
  const DayShiftLimit: int := 5373485

  /** Julian day 0 (noon, 24 November 4714 BC) in Unix seconds: SQLite's earliest instant. */
  const EarliestInstant: int := -210866760000

  /** 9999-12-31 23:59:59 in Unix seconds: SQLite's latest instant. */
  const LatestInstant: int := 253402300799

  /**
    The lower bound `datetime('now', '-{days} days')` for a window of
    `days` days ending at `now`. The bound is NULL, and no row compares
    greater than it, in three cases:
      - a negative `days` renders as `--N days`, which SQLite does not
        accept as a modifier;
      - SQLite refuses a shift of `DayShiftLimit` days or more;
      - SQLite gives NULL for an instant outside its date range.
  */
  function WindowStart(now: int, days: int): (start: Option<int>)
    ensures start.Some? <==> 0 <= days < DayShiftLimit && EarliestInstant <= now - days * Day <= LatestInstant
    ensures start.Some? ==> now - start.value == days * Day
  {
    if days < 0 || days >= DayShiftLimit then None
    else
      var t := now - days * Day;
      if t < EarliestInstant || t > LatestInstant then None else Some(t)
  }

  /**
    Any window of up to 2,440,587 days (back to Julian day 0 from the
    epoch) ending at an instant between 1970 and the end of year 9999 has
    a bound.
  */
  lemma OrdinaryWindowHasStart(now: int, days: int)
    requires 0 <= now <= LatestInstant && 0 <= days <= 2440587
    ensures WindowStart(now, days) == Some(now - days * Day)
  {
  }

  /** One server's history restricted to `timestamp > start`. */
  function Window(st: Store, name: string, start: Option<int>): (r: seq<Sample>)
    ensures start.None? ==> r == []
    ensures forall k :: 0 <= k < |r| ==> r[k] in History(st, name) && r[k].timestamp > start.value
    ensures forall s :: s in History(st, name) && start.Some? && s.timestamp > start.value ==> s in r
  {
    match start
    case None => []
    case Some(t) =>
      var r := Filter(After(t), History(st, name));
      assert forall s :: s in r <==> s in History(st, name) && s.timestamp > t by {
        forall s ensures s in r <==> s in History(st, name) && s.timestamp > t {
          FilterMembership(After(t), History(st, name), s);
        }
      }
      r
  }

  /**
    The window keeps every copy of a sample after its start, so `AVG`
    weighs repeated samples as often as they are stored.
  */
  lemma WindowMultiplicity(st: Store, name: string, start: int, s: Sample)
    ensures multiset(Window(st, name, Some(start)))[s] ==
              if s.timestamp > start then multiset(History(st, name))[s] else 0
  {
    FilterMultiset(After(start), History(st, name), s);
  }

  /** `SUM(online)`. */
  function Total(xs: seq<Sample>): int
    decreases |xs|
  {
    if |xs| == 0 then 0 else xs[0].online + Total(xs[1..])
  }

  /** `MAX(online)` over a non-empty set of rows. */
  function Peak(xs: seq<Sample>): (m: int)
    requires |xs| > 0
    ensures forall k :: 0 <= k < |xs| ==> xs[k].online <= m
    ensures exists k :: 0 <= k < |xs| && xs[k].online == m
    decreases |xs|
  {
    if |xs| == 1 then xs[0].online
    else
      var m := Peak(xs[1..]);
      assert forall k :: 1 <= k < |xs| ==> xs[k] == xs[1..][k - 1];
      if xs[0].online >= m then xs[0].online else m
  }

  /** The UTC calendar day of an instant, as `strftime('%Y-%m-%d', timestamp)` names it. */
  function DayOf(timestamp: int): int {
    timestamp / Day
  }

  /** The distinct calendar days the rows fall on. */
  function DaysOf(xs: seq<Sample>): (days: set<int>)
    ensures forall k :: 0 <= k < |xs| ==> DayOf(xs[k].timestamp) in days
    ensures forall d :: d in days ==> exists k :: 0 <= k < |xs| && DayOf(xs[k].timestamp) == d
    ensures |days| <= |xs|
    ensures |xs| > 0 ==> |days| > 0
    decreases |xs|
  {
    if |xs| == 0 then {}
    else
      var tail := xs[1..];
      var rest := DaysOf(tail);
      var first := DayOf(xs[0].timestamp);
      assert forall k :: 1 <= k < |xs| ==> xs[k] == tail[k - 1];
      assert forall d :: d in rest ==> exists k :: 0 <= k < |xs| && DayOf(xs[k].timestamp) == d by {
        forall d | d in rest ensures exists k :: 0 <= k < |xs| && DayOf(xs[k].timestamp) == d {
          var k :| 0 <= k < |tail| && DayOf(tail[k].timestamp) == d;
          assert xs[k + 1] == tail[k];
        }
      }
      assert |{first} + rest| <= |rest| + 1 by {
        if first in rest {
          assert {first} + rest == rest;
        } else {
          assert |{first} + rest| == |rest| + 1;
        }
      }
      {first} + rest
  }

  /**
    One row of the report: `MAX(online)`, `AVG(online)` and
    `COUNT(DISTINCT date)`. Over no rows, MAX and AVG are NULL and the
    count is 0.
  */
  datatype Summary = Summary(peak: Option<int>, average: Option<real>, days: nat)

  /** The aggregate `generate_report` selects over a window's rows. */
  function Summarize(xs: seq<Sample>): (r: Summary)
    ensures |xs| == 0 <==> r.peak.None?
    ensures |xs| == 0 <==> r.average.None?
    ensures |xs| == 0 <==> r.days == 0
    ensures r.days == |set k | 0 <= k < |xs| :: DayOf(xs[k].timestamp)|
    ensures r.days <= |xs|
    ensures r.peak.Some? ==> && (forall k :: 0 <= k < |xs| ==> xs[k].online <= r.peak.value)
                             && (exists k :: 0 <= k < |xs| && xs[k].online == r.peak.value)
  {
    if |xs| == 0 then Summary(None, None, 0)
    else
      var days := DaysOf(xs);
      assert |days| > 0;
      assert days == set k | 0 <= k < |xs| :: DayOf(xs[k].timestamp);
      var t, n := Total(xs) as real, |xs| as real;
      Summary(Some(Peak(xs)), Some(t / n), |days|)
  }

  /** The reported average is the mean: times the row count it gives the total. */
  lemma AverageIsMean(xs: seq<Sample>, a: real)
    requires Summarize(xs).average == Some(a)
    ensures a * (|xs| as real) == Total(xs) as real
  {
    MeanTimesCount(a, Total(xs), |xs|);
  }

  lemma {:induction false} TotalAtMostPeak(xs: seq<Sample>, m: int)
    requires forall k :: 0 <= k < |xs| ==> xs[k].online <= m
    ensures Total(xs) <= |xs| * m
    decreases |xs|
  {
    if |xs| > 0 {
      assert forall k :: 0 <= k < |xs[1..]| ==> xs[1..][k] == xs[k + 1];
      TotalAtMostPeak(xs[1..], m);
    }
  }

  /** The reported average never exceeds the reported peak. */
  lemma AverageAtMostPeak(xs: seq<Sample>)
    ensures Summarize(xs).peak.Some? ==> Summarize(xs).average.value <= Summarize(xs).peak.value as real
  {
    if |xs| > 0 {
      var m := Peak(xs);
      TotalAtMostPeak(xs, m);
      var a := Total(xs) as real / |xs| as real;
      QuotientTimesDivisor(Total(xs) as real, |xs| as real);
      MeanBound(a, Total(xs), |xs|, m);
      assert Summarize(xs) == Summary(Some(m), Some(a), |DaysOf(xs)|);
    }
  }

  /** A mean of `n` values whose total is at most `n * p` is at most `p`. */
  lemma MeanBound(a: real, t: int, n: int, p: int)
    requires n > 0 && a * (n as real) == t as real && t <= n * p
    ensures a <= p as real
  {
    assert (n * p) as real == (n as real) * (p as real);
    assert a * (n as real) <= (p as real) * (n as real);
  }

  lemma MeanTimesCount(a: real, t: int, n: int)
    requires n > 0 && a == (t as real) / (n as real)
    ensures a * (n as real) == t as real
  {
    QuotientTimesDivisor(t as real, n as real);
  }

  lemma QuotientTimesDivisor(t: real, n: real)
    requires n > 0.0
    ensures (t / n) * n == t
  {
  }

  /** Rows that all fall on one calendar day count as one day of data. */
  lemma OneDayCountsOnce(xs: seq<Sample>, d: int)
    requires |xs| > 0
    requires forall k :: 0 <= k < |xs| ==> DayOf(xs[k].timestamp) == d
    ensures Summarize(xs).days == 1
  {
    assert DaysOf(xs) == {d};
  }

  /**
    `generate_report(days)`: one summary per registered server, in listing
    order, over the samples after the window start.
  */
  function Report(st: Store, now: int, days: int): (rows: seq<(Server, Summary)>)
    ensures |rows| == |st.servers|
    ensures forall i :: 0 <= i < |rows| ==> rows[i].0 == st.servers[i]
    ensures WindowStart(now, days).None? ==> forall i :: 0 <= i < |rows| ==> rows[i].1 == Summary(None, None, 0)
    ensures WindowStart(now, days).Some? ==> forall i :: 0 <= i < |rows| ==>
              rows[i].1 == Summarize(Window(st, st.servers[i].name, Some(now - days * Day)))
  {
    seq(|st.servers|, i requires 0 <= i < |st.servers| =>
      (st.servers[i], Summarize(Window(st, st.servers[i].name, WindowStart(now, days)))))
  }

  /** Earlier rows never carry a later instant. */
  predicate Chronological(xs: seq<Sample>) {
    forall i, j :: 0 <= i < j < |xs| ==> xs[i].timestamp <= xs[j].timestamp
  }

  /** Places `x` after every row not later than it. */
  function Insert(x: Sample, ys: seq<Sample>): (r: seq<Sample>)
    requires Chronological(ys)
    ensures |r| == |ys| + 1
    ensures r[0] == if |ys| == 0 || x.timestamp < ys[0].timestamp then x else ys[0]
    ensures Chronological(r)
    ensures multiset(r) == multiset(ys) + multiset{x}
    decreases |ys|
  {
    if |ys| == 0 then [x]
    else if x.timestamp < ys[0].timestamp then
      assert ys == [ys[0]] + ys[1..];
      [x] + ys
    else
      var tail := ys[1..];
      var rest := Insert(x, tail);
      assert ys == [ys[0]] + tail;
      var r := [ys[0]] + rest;
      assert ys[0].timestamp <= rest[0].timestamp;
      assert Chronological(r) by {
        forall i, j | 0 <= i < j < |r| ensures r[i].timestamp <= r[j].timestamp {
          if i == 0 && j > 1 {
            assert rest[0].timestamp <= rest[j - 1].timestamp;
          }
        }
      }
      r
  }

  /**
    `ORDER BY timestamp`: the rows in time order. Rows with the same
    timestamp keep their insertion order.
  */
  function SortByTime(xs: seq<Sample>): (r: seq<Sample>)
    ensures Chronological(r)
    ensures multiset(r) == multiset(xs)
    ensures |r| == |xs|
    decreases |xs|
  {
    if |xs| == 0 then []
    else
      assert xs == xs[..|xs| - 1] + [xs[|xs| - 1]];
      var r := Insert(xs[|xs| - 1], SortByTime(xs[..|xs| - 1]));
      assert |r| == |multiset(r)|;
      r
  }

  /** The rows in the opposite order. */
  function Reverse(xs: seq<Sample>): (r: seq<Sample>)
    ensures |r| == |xs|
    ensures forall i :: 0 <= i < |r| ==> r[i] == xs[|xs| - 1 - i]
    ensures multiset(r) == multiset(xs)
    decreases |xs|
  {
    if |xs| == 0 then []
    else
      assert xs == xs[..|xs| - 1] + [xs[|xs| - 1]];
      [xs[|xs| - 1]] + Reverse(xs[..|xs| - 1])
  }

  /** How many samples the anomaly check reads: `LIMIT 6`. */
  const RecentLimit: nat := 6

  /**
    `ORDER BY timestamp DESC LIMIT limit`: the `limit` latest rows, newest
    first. Every row left out is no later than every row returned. Rows
    with equal timestamps come newest insertion first.
  */
  function Latest(xs: seq<Sample>, limit: nat): (r: seq<Sample>)
    ensures |r| == if |xs| < limit then |xs| else limit
    ensures forall i, j :: 0 <= i < j < |r| ==> r[i].timestamp >= r[j].timestamp
    ensures multiset(r) <= multiset(xs)
    ensures forall s, k :: s in multiset(xs) - multiset(r) && 0 <= k < |r| ==> s.timestamp <= r[k].timestamp
  {
    var sorted := SortByTime(xs);
    var cut := if |sorted| < limit then 0 else |sorted| - limit;
    var r := Reverse(sorted[cut..]);
    LatestOfSortedRows(xs, sorted, cut, r);
    r
  }

  /** The newest rows of a time-ordered copy of `xs`, newest first, are the latest rows of `xs`. */
  lemma LatestOfSortedRows(xs: seq<Sample>, sorted: seq<Sample>, cut: nat, r: seq<Sample>)
    requires Chronological(sorted) && multiset(sorted) == multiset(xs)
    requires cut <= |sorted| && r == Reverse(sorted[cut..])
    ensures forall i, j :: 0 <= i < j < |r| ==> r[i].timestamp >= r[j].timestamp
    ensures multiset(r) <= multiset(xs)
    ensures forall s, k :: s in multiset(xs) - multiset(r) && 0 <= k < |r| ==> s.timestamp <= r[k].timestamp
  {
    LatestOfSorted(sorted, cut);
    var older, picked := multiset(sorted[..cut]), multiset(r);
    assert multiset(xs) == older + picked;
    assert multiset(xs) - picked == older;
  }

  lemma LatestOfSorted(sorted: seq<Sample>, cut: nat)
    requires Chronological(sorted) && cut <= |sorted|
    ensures var r := Reverse(sorted[cut..]);
      && (forall i, j :: 0 <= i < j < |r| ==> r[i].timestamp >= r[j].timestamp)
      && multiset(sorted) == multiset(sorted[..cut]) + multiset(r)
      && (forall s, k :: s in multiset(sorted[..cut]) && 0 <= k < |r| ==> s.timestamp <= r[k].timestamp)
  {
    NewestFirst(sorted, cut);
    assert sorted == sorted[..cut] + sorted[cut..];
    OlderNotLater(sorted, cut);
  }

  lemma NewestFirst(sorted: seq<Sample>, cut: nat)
    requires Chronological(sorted) && cut <= |sorted|
    ensures var r := Reverse(sorted[cut..]);
      forall i, j :: 0 <= i < j < |r| ==> r[i].timestamp >= r[j].timestamp
  {
    var newer := sorted[cut..];
    var r := Reverse(newer);
    forall i, j | 0 <= i < j < |r| ensures r[i].timestamp >= r[j].timestamp {
      assert r[i] == newer[|newer| - 1 - i] == sorted[cut + |newer| - 1 - i];
      assert r[j] == newer[|newer| - 1 - j] == sorted[cut + |newer| - 1 - j];
    }
  }

  lemma OlderNotLater(sorted: seq<Sample>, cut: nat)
    requires Chronological(sorted) && cut <= |sorted|
    ensures var r := Reverse(sorted[cut..]);
      forall s, k :: s in multiset(sorted[..cut]) && 0 <= k < |r| ==> s.timestamp <= r[k].timestamp
  {
    var older, newer := sorted[..cut], sorted[cut..];
    var r := Reverse(newer);
    forall s: Sample, k | s in multiset(older) && 0 <= k < |r| ensures s.timestamp <= r[k].timestamp {
      assert s in older;
      var i :| 0 <= i < |older| && older[i] == s;
      assert sorted[i] == s;
      assert r[k] == newer[|newer| - 1 - k] == sorted[cut + |newer| - 1 - k];
    }
  }

  /** The online counts of the latest rows, newest first: the list `detect_anomalies` builds. */
  function RecentCounts(st: Store, name: string): (data: seq<int>)
    ensures |data| == if |History(st, name)| < RecentLimit then |History(st, name)| else RecentLimit
    ensures forall i :: 0 <= i < |data| ==> data[i] == Latest(History(st, name), RecentLimit)[i].online
  {
    Onlines(Latest(History(st, name), RecentLimit))
  }

  /** The `online` column of the rows, in row order. */
  function Onlines(rows: seq<Sample>): (data: seq<int>)
    ensures |data| == |rows|
    ensures forall i :: 0 <= i < |rows| ==> data[i] == rows[i].online
  {
    seq(|rows|, i requires 0 <= i < |rows| => rows[i].online)
  }

  /** The first of the latest rows is a row of `xs` no earlier than any other row of `xs`. */
  lemma LatestHeadIsNewest(xs: seq<Sample>, limit: nat, s: Sample)
    requires limit > 0 && s in xs
    ensures |Latest(xs, limit)| > 0
    ensures Latest(xs, limit)[0] in xs
    ensures Latest(xs, limit)[0].timestamp >= s.timestamp
  {
    var r := Latest(xs, limit);
    assert r[0] in multiset(xs);
    if s !in multiset(xs) - multiset(r) {
      assert s in multiset(r);
      var j :| 0 <= j < |r| && r[j] == s;
      if j > 0 {
        assert r[0].timestamp >= r[j].timestamp;
      }
    }
  }

  /**
    The first count the anomaly check reads is the count of a newest
    sample in the server's history.
  */
  lemma NewestCountIsCurrent(st: Store, name: string)
    requires |History(st, name)| > 0
    ensures |RecentCounts(st, name)| > 0
    ensures var h := History(st, name);
            exists k :: 0 <= k < |h| && h[k].online == RecentCounts(st, name)[0]
                        && forall j :: 0 <= j < |h| ==> h[j].timestamp <= h[k].timestamp
  {
    NewestOfRows(History(st, name));
  }

  lemma NewestOfRows(xs: seq<Sample>)
    requires |xs| > 0
    ensures |Onlines(Latest(xs, RecentLimit))| > 0
    ensures exists k :: 0 <= k < |xs| && xs[k].online == Onlines(Latest(xs, RecentLimit))[0]
                        && forall j :: 0 <= j < |xs| ==> xs[j].timestamp <= xs[k].timestamp
  {
    LatestHeadIsMax(xs, RecentLimit);
  }

  /** The first of the latest rows is a row of `xs` with the greatest timestamp. */
  lemma LatestHeadIsMax(xs: seq<Sample>, limit: nat)
    requires limit > 0 && |xs| > 0
    ensures |Latest(xs, limit)| > 0
    ensures exists k :: 0 <= k < |xs| && xs[k] == Latest(xs, limit)[0]
                        && forall j :: 0 <= j < |xs| ==> xs[j].timestamp <= xs[k].timestamp
  {
    var r := Latest(xs, limit);
    forall j | 0 <= j < |xs| ensures xs[j].timestamp <= r[0].timestamp {
      LatestHeadIsNewest(xs, limit, xs[j]);
    }
    LatestHeadIsNewest(xs, limit, xs[0]);
    var k :| 0 <= k < |xs| && xs[k] == r[0];
  }

  /**
    The rows `plot_trend` draws for one server: its window in time order.
    The chart, its labels and the file it is saved to are not modelled.
  */
  function Series(st: Store, name: string, start: Option<int>): (r: seq<Sample>)
    ensures Chronological(r)
    ensures multiset(r) == multiset(Window(st, name, start))
  {
    SortByTime(Window(st, name, start))
  }

  /**
    A sample the polling round stores for a registered server appears in
    that server's trend series exactly for the windows that start before
    its timestamp.
  */
  lemma PolledSampleInWindow(st: Store, probe: Probe, now: int, i: int, start: int)
    requires Valid(st)
    requires 0 <= i < |st.servers|
    requires probe(st.servers[i].ip).Some?
    ensures var s := Sample(st.servers[i].id, probe(st.servers[i].ip).value, now);
            s in Series(CollectData(st, probe, now), st.servers[i].name, Some(start)) <==> start < now
  {
    var srv := st.servers[i];
    var s := Sample(srv.id, probe(srv.ip).value, now);
    var st' := CollectData(st, probe, now);
    var up := Filter(Answers(probe), st.servers);
    FilterMembership(Answers(probe), st.servers, srv);
    var k :| 0 <= k < |up| && up[k] == srv;
    var batch := Poll(st.servers, probe, now);
    assert batch[k] == s;
    assert st'.samples[|st.samples| + k] == s;
    assert s in st'.samples;
    assert Valid(st');
    assert s in History(st', srv.name);
    var w := Window(st', srv.name, Some(start));
    assert s in w <==> start < now;
    assert s in multiset(w) <==> s in multiset(Series(st', srv.name, Some(start)));
  }
}

=== FILE: scheduler.dfy ===
/**
  The main loop of `run`: each pass drains the queued commands, then
  decides from the clocks and three markers which scheduled actions fire,
  runs them in a fixed order and updates the markers. Clock readings are
  inputs: `wall` is `time.time()` in whole seconds, `local` is
  `datetime.now()` as whole seconds of local wall time counted from a
  local midnight, so that `local % Day` is the time of day.
*/
module Scheduler {
  import opened Optional
  import opened Store
  import opened Queries
  import opened Anomaly
  import opened Commands

  /** Seconds in an hour and in a minute. */
  const Hour: int := 3600
  const Minute: int := 60

  /** `datetime.hour` of a local reading. */
  function HourOf(local: int): (h: int)
    ensures 0 <= h < 24
  {
    (local / Hour) % 24
  }

  /** `datetime.minute` of a local reading. */
  function MinuteOf(local: int): (m: int)
    ensures 0 <= m < 60
  {
    (local / Minute) % 60
  }

  /** The hour and minute of a reading depend only on its time of day. */
  lemma ClockFields(local: int)
    ensures HourOf(local) == (local % Day) / Hour
    ensures MinuteOf(local) == (local % Hour) / Minute
    ensures local % Hour == (local % Day) % Hour
  {
    var q, r := local / Day, local % Day;
    assert local == q * Day + r;
    var h, s := r / Hour, r % Hour;
    assert r == h * Hour + s && 0 <= h < 24 && 0 <= s < Hour;
    assert local == (q * 24 + h) * Hour + s;
    assert local / Hour == q * 24 + h;
    assert local % Hour == s;
    assert (q * 24 + h) % 24 == h;
    var q2, r2 := local / Minute, local % Minute;
    assert local == q2 * Minute + r2;
    assert local == ((q * 24 + h) * 60 + s / Minute) * Minute + s % Minute;
    assert local / Minute == (q * 24 + h) * 60 + s / Minute;
    assert ((q * 24 + h) * 60 + s / Minute) % 60 == s / Minute;
  }

  /** Whole days of a `timedelta` of `seconds`, rounded towards minus infinity like `timedelta.days`. */
  function WholeDays(seconds: int): int {
    seconds / Day
  }

  /**
    The markers `run` keeps between passes. `lastReport` is written when
    a report fires and never read.
  */
  datatype Markers = Markers(lastCollect: int, lastReport: int, lastClean: int)

  /** The three clock readings of one pass. */
  datatype Readings = Readings(
    wall: int,              // `time.time()` in the collect test
    wallAfterCollect: int,  // `time.time()` read again after a collection
    local: int)             // `datetime.now()` after the collection step

  /** A pass's readings never go backwards within the pass. */
  predicate Steady(r: Readings) {
    r.wallAfterCollect >= r.wall
  }

  /** Which scheduled actions one pass runs. */
  datatype Plan = Plan(collect: bool, report: bool, clean: bool, detect: bool)

  /** The markers before the first pass: one wall reading and one local reading, both taken at start. */
  function Start(wall: int, local: int): Markers {
    Markers(wall, local, local)
  }

  /**
    The four tests of one pass, each on its own: collect once `interval`
    seconds have passed on the wall clock since the last collection;
    report whenever the local time is 08:00 to 08:04; clean once a week of
    local time has passed since the last cleaning; detect whenever the
    local minute is 0. Neither the report nor the detection is held back
    by an earlier run of itself.
  */
  function Decide(r: Readings, m: Markers, interval: int): (p: Plan)
    ensures p.collect <==> r.wall - m.lastCollect >= interval
    ensures p.report <==> 8 * Hour <= r.local % Day < 8 * Hour + 5 * Minute
    ensures p.detect <==> r.local % Hour < Minute
    ensures p.clean <==> r.local - m.lastClean >= 7 * Day
  {
    ClockFields(r.local);
    Plan(
      r.wall - m.lastCollect >= interval,
      HourOf(r.local) == 8 && MinuteOf(r.local) < 5,
      WholeDays(r.local - m.lastClean) >= 7,
      MinuteOf(r.local) == 0)
  }

  /** The markers after a pass that ran `p`. */
  function Advance(r: Readings, m: Markers, p: Plan): (m': Markers)
    ensures m'.lastCollect == if p.collect then r.wallAfterCollect else m.lastCollect
    ensures m'.lastClean == if p.clean then r.local else m.lastClean
  {
    Markers(
      if p.collect then r.wallAfterCollect else m.lastCollect,
      if p.report then r.local else m.lastReport,
      if p.clean then r.local else m.lastClean)
  }

  /** The plans of consecutive passes starting from markers `m`. */
  function Schedule(m: Markers, rs: seq<Readings>, interval: int): (ps: seq<Plan>)
    ensures |ps| == |rs|
    decreases |rs|
  {
    if |rs| == 0 then []
    else
      var p := Decide(rs[0], m, interval);
      [p] + Schedule(Advance(rs[0], m, p), rs[1..], interval)
  }

  /** The report marker has no say in any decision. */
  lemma ReportMarkerUnread(r: Readings, m: Markers, interval: int, other: int)
    ensures Decide(r, m.(lastReport := other), interval) == Decide(r, m, interval)
  {
  }

  /**
    Every pass is decided on its own readings: a pass in the report window
    reports and a pass in minute 0 detects, whatever earlier passes did.
  */
  lemma {:induction false} NoOncePerDayGuard(m: Markers, rs: seq<Readings>, interval: int, j: int)
    requires 0 <= j < |rs|
    ensures Schedule(m, rs, interval)[j].report <==> 8 * Hour <= rs[j].local % Day < 8 * Hour + 5 * Minute
    ensures Schedule(m, rs, interval)[j].detect <==> rs[j].local % Hour < Minute
    decreases |rs|
  {
    if j > 0 {
      var p := Decide(rs[0], m, interval);
      NoOncePerDayGuard(Advance(rs[0], m, p), rs[1..], interval, j - 1);
    }
  }

  /** A cleaning pass comes at least a week of local time after the starting clean marker. */
  lemma {:induction false} CleanWaitsForMarker(m: Markers, rs: seq<Readings>, interval: int, j: int)
    requires 0 <= j < |rs| && Schedule(m, rs, interval)[j].clean
    ensures rs[j].local - m.lastClean >= 7 * Day
    decreases |rs|
  {
    if j > 0 {
      var p := Decide(rs[0], m, interval);
      CleanWaitsForMarker(Advance(rs[0], m, p), rs[1..], interval, j - 1);
    }
  }

  /** Any two cleaning passes are at least a week of local time apart. */
  lemma {:induction false} CleanAtMostWeekly(m: Markers, rs: seq<Readings>, interval: int, i: int, j: int)
    requires 0 <= i < j < |rs|
    ensures Schedule(m, rs, interval)[i].clean && Schedule(m, rs, interval)[j].clean
            ==> rs[j].local - rs[i].local >= 7 * Day
    decreases |rs|
  {
    var p := Decide(rs[0], m, interval);
    var m' := Advance(rs[0], m, p);
    if i > 0 {
      CleanAtMostWeekly(m', rs[1..], interval, i - 1, j - 1);
    } else if Schedule(m, rs, interval)[j].clean {
      CleanWaitsForMarker(m', rs[1..], interval, j - 1);
    }
  }

  /**
    A collecting pass comes at least `interval` seconds of wall time after
    the starting collect marker.
  */
  lemma {:induction false} CollectWaitsForMarker(m: Markers, rs: seq<Readings>, interval: int, j: int)
    requires interval >= 0
    requires forall k :: 0 <= k < |rs| ==> Steady(rs[k])
    requires 0 <= j < |rs| && Schedule(m, rs, interval)[j].collect
    ensures rs[j].wall - m.lastCollect >= interval
    decreases |rs|
  {
    if j > 0 {
      var p := Decide(rs[0], m, interval);
      assert Steady(rs[0]);
      CollectWaitsForMarker(Advance(rs[0], m, p), rs[1..], interval, j - 1);
    }
  }

  /**
    Two collecting passes are at least `interval` seconds apart, counted
    from the reading taken after the earlier collection.
  */
  lemma {:induction false} CollectSpacing(m: Markers, rs: seq<Readings>, interval: int, i: int, j: int)
    requires interval >= 0
    requires forall k :: 0 <= k < |rs| ==> Steady(rs[k])
    requires 0 <= i < j < |rs|
    requires Schedule(m, rs, interval)[i].collect && Schedule(m, rs, interval)[j].collect
    ensures rs[j].wall - rs[i].wallAfterCollect >= interval
    decreases |rs|
  {
    var p := Decide(rs[0], m, interval);
    var m' := Advance(rs[0], m, p);
    if i > 0 {
      CollectSpacing(m', rs[1..], interval, i - 1, j - 1);
    } else {
      CollectWaitsForMarker(m', rs[1..], interval, j - 1);
    }
  }

  /** No cleaning in the first week after start, and no collection in the first interval. */
  lemma QuietStart(wall: int, local: int, rs: seq<Readings>, interval: int, j: int)
    requires interval >= 0
    requires forall k :: 0 <= k < |rs| ==> Steady(rs[k])
    requires 0 <= j < |rs|
    ensures Schedule(Start(wall, local), rs, interval)[j].clean ==> rs[j].local >= local + 7 * Day
    ensures Schedule(Start(wall, local), rs, interval)[j].collect ==> rs[j].wall >= wall + interval
  {
    if Schedule(Start(wall, local), rs, interval)[j].clean {
      CleanWaitsForMarker(Start(wall, local), rs, interval, j);
    }
    if Schedule(Start(wall, local), rs, interval)[j].collect {
      CollectWaitsForMarker(Start(wall, local), rs, interval, j);
    }
  }

  /** A freshly launched monitor neither cleans in its first week nor collects in its first interval. */
  lemma QuietAfterLaunch(st: Store, flag: bool, wall: int, local: int, rs: seq<Readings>, j: int)
    requires forall k :: 0 <= k < |rs| ==> Steady(rs[k])
    requires 0 <= j < |rs|
    ensures var m := Launch(st, flag, wall, local).markers;
            && (Schedule(m, rs, Interval)[j].clean ==> rs[j].local >= local + 7 * Day)
            && (Schedule(m, rs, Interval)[j].collect ==> rs[j].wall >= wall + Interval)
  {
    QuietStart(wall, local, rs, Interval, j);
  }

  /** All four actions can fire in one pass: at 08:00 a week after the last cleaning. */
  lemma AllFourInOnePass()
    ensures Decide(Readings(1000, 1001, 8 * Day + 8 * Hour), Markers(0, 0, Day + 8 * Hour), Interval)
            == Plan(true, true, true, true)
  {
  }

  /** What a pass did, in the order it did it. */
  datatype Event =
    | Answered(cmd: string, reply: Reply)
    | Collected(batch: seq<Sample>)
    | Reported(rows: seq<(Server, Summary)>)
    | Cleaned(deleted: Option<nat>)   // `None`: data is never deleted
    | Detected(verdicts: seq<(Server, Verdict)>)

  /** The monitor between passes. */
  datatype Monitor = Monitor(store: Store, markers: Markers, running: bool, neverDelete: bool)

  /**
    `MCMonitor(never_delete)` followed by the start of `run`: the retention
    switch comes from the command-line flag alone.
  */
  function Launch(st: Store, neverDeleteFlag: bool, wall: int, local: int): (mon: Monitor)
    ensures mon.running && mon.neverDelete == neverDeleteFlag
    ensures mon.store == st && mon.markers == Start(wall, local)
  {
    Monitor(st, Start(wall, local), true, neverDeleteFlag)
  }

  /**
    `events` answers `cmds` one for one, in order; exactly the answers to
    `exit` say the loop is stopping.
  */
  predicate AnswersTo(cmds: seq<string>, events: seq<Event>) {
    && |events| == |cmds|
    && (forall k :: 0 <= k < |cmds| ==> events[k].Answered? && events[k].cmd == cmds[k])
    && (forall k :: 0 <= k < |cmds| ==> (events[k].reply == Stopping <==> cmds[k] == "exit"))
  }

  /** Answering one more command in front keeps the answers one for one. */
  lemma AnswerFirst(cmds: seq<string>, reply: Reply, events: seq<Event>)
    requires |cmds| > 0 && AnswersTo(cmds[1..], events)
    requires reply == Stopping <==> cmds[0] == "exit"
    ensures AnswersTo(cmds, [Answered(cmds[0], reply)] + events)
  {
    var all := [Answered(cmds[0], reply)] + events;
    forall k | 0 < k < |cmds|
      ensures all[k] == events[k - 1] && cmds[k] == cmds[1..][k - 1]
    {
    }
  }

  /**
    `_process_input`: every queued command in order, each answered. An
    `exit` stops the loop only after the queue is drained.
  */
  function Drain(st: Store, cmds: seq<string>, env: Env): (r: (Store, seq<Event>))
    ensures AnswersTo(cmds, r.1)
    ensures Valid(st) ==> Valid(r.0)
    decreases |cmds|
  {
    if |cmds| == 0 then (st, [])
    else
      var first := Execute(st, cmds[0], env);
      var rest := Drain(first.0, cmds[1..], env);
      AnswerFirst(cmds, first.1, rest.1);
      (rest.0, [Answered(cmds[0], first.1)] + rest.1)
  }

  /** Where an event of a scheduled action stands in a pass; answers come first. */
  function Rank(e: Event): nat {
    match e
    case Answered(_, _) => 0
    case Collected(_) => 1
    case Reported(_) => 2
    case Cleaned(_) => 3
    case Detected(_) => 4
  }

  /** The ranks of a list of events, in order. */
  function Ranks(es: seq<Event>): (ranks: seq<nat>)
    ensures |ranks| == |es|
    ensures forall k :: 0 <= k < |es| ==> ranks[k] == Rank(es[k])
  {
    seq(|es|, k requires 0 <= k < |es| => Rank(es[k]))
  }

  /** `xs` with `x` appended when `on` holds: one `if` of `run`'s body. */
  function Emit<T>(xs: seq<T>, on: bool, x: T): seq<T> {
    if on then xs + [x] else xs
  }

  /** What `Emit` holds: what was there, and the new element if it was emitted. */
  lemma EmitHas<T>(xs: seq<T>, on: bool, x: T, y: T)
    ensures y in Emit(xs, on, x) <==> y in xs || (on && y == x)
  {
    if on {
      assert Emit(xs, on, x) == xs + [x];
    }
  }

  /** Every earlier rank is below every later one. */
  predicate Increasing(rs: seq<nat>) {
    forall i, j :: 0 <= i < j < |rs| ==> rs[i] < rs[j]
  }

  /** Appending a rank above all present keeps the ranks increasing. */
  lemma EmitAbove(rs: seq<nat>, on: bool, n: nat)
    requires Increasing(rs) && forall k :: 0 <= k < |rs| ==> rs[k] < n
    ensures Increasing(Emit(rs, on, n)) && forall k :: 0 <= k < |Emit(rs, on, n)| ==> Emit(rs, on, n)[k] <= n
  {
  }

  /** The ranks of the events emitted are the ranks emitted. */
  lemma EmitRanks(es: seq<Event>, on: bool, e: Event)
    ensures Ranks(Emit(es, on, e)) == Emit(Ranks(es), on, Rank(e))
  {
  }

  /**
    The ranks of the actions `p` fires, in the order `run` tests them:
    collect, report, clean, detect.
  */
  function Fired(p: Plan): (ranks: seq<nat>)
    ensures Increasing(ranks)
  {
    var r1 := Emit([], p.collect, 1);
    EmitAbove([], p.collect, 1);
    var r2 := Emit(r1, p.report, 2);
    EmitAbove(r1, p.report, 2);
    var r3 := Emit(r2, p.clean, 3);
    EmitAbove(r2, p.clean, 3);
    EmitAbove(r3, p.detect, 4);
    Emit(r3, p.detect, 4)
  }

  /** A rank is fired exactly when the plan holds its action. */
  lemma FiredHas(p: Plan, n: nat)
    ensures n in Fired(p) <==> (n == 1 && p.collect) || (n == 2 && p.report) || (n == 3 && p.clean) || (n == 4 && p.detect)
  {
    var r1 := Emit([], p.collect, 1);
    var r2 := Emit(r1, p.report, 2);
    var r3 := Emit(r2, p.clean, 3);
    EmitHas([], p.collect, 1, n);
    EmitHas(r1, p.report, 2, n);
    EmitHas(r2, p.clean, 3, n);
    EmitHas(r3, p.detect, 4, n);
  }

  /** The store after the collection step of a pass. */
  function AfterCollect(st: Store, p: Plan, probe: Probe, now: int): (st1: Store)
    ensures st1 == Store(st.servers, st.samples + (if p.collect then Poll(st.servers, probe, now) else []), st.nextId)
  {
    if p.collect then CollectData(st, probe, now)
    else
      assert st.samples + [] == st.samples;
      st
  }

  /**
    The scheduled part of a pass. Collection appends the polling round;
    the report is taken on the store with that round; retention then
    purges the stale samples unless data is never deleted; detection reads
    the store the pass leaves. There is one event per action that fires,
    in the order collect, report, clean, detect.
  */
  function Perform(st: Store, p: Plan, probe: Probe, now: int, neverDelete: bool): (r: (Store, seq<Event>))
    ensures r.0.servers == st.servers && r.0.nextId == st.nextId
    ensures Valid(st) ==> Valid(r.0)
    ensures var polled := if p.collect then Poll(st.servers, probe, now) else [];
            && (!p.clean || neverDelete ==> r.0.samples == st.samples + polled)
            && (p.clean && !neverDelete ==> forall k :: 0 <= k < |r.0.samples| ==> r.0.samples[k].timestamp >= RetentionCutoff(now))
            && (forall s: Sample :: s.timestamp >= RetentionCutoff(now) ==> multiset(r.0.samples)[s] == multiset(st.samples + polled)[s])
  {
    var st1 := AfterCollect(st, p, probe, now);
    var cleaned := CleanOldData(st1, now, neverDelete);
    var st2 := if p.clean then cleaned.0 else st1;
    (st2, PassEvents(st, p, probe, now, st1, cleaned.1, st2))
  }

  /** The events of a pass, given the stores before and after cleaning and the retention count. */
  function PassEvents(st: Store, p: Plan, probe: Probe, now: int, st1: Store, deleted: Option<nat>, st2: Store): seq<Event> {
    var e1 := Emit([], p.collect, Collected(Poll(st.servers, probe, now)));
    var e2 := Emit(e1, p.report, Reported(Report(st1, now, 1)));
    var e3 := Emit(e2, p.clean, Cleaned(deleted));
    Emit(e3, p.detect, Detected(DetectAnomalies(st2)))
  }

  /** Four candidate events, each emitted when its action fires, are ranked as `Fired` says. */
  lemma EmittedRanks(p: Plan, c: Event, rep: Event, cl: Event, d: Event)
    requires c.Collected? && rep.Reported? && cl.Cleaned? && d.Detected?
    ensures Ranks(Emit(Emit(Emit(Emit([], p.collect, c), p.report, rep), p.clean, cl), p.detect, d)) == Fired(p)
  {
    var e1 := Emit([], p.collect, c);
    var e2 := Emit(e1, p.report, rep);
    var e3 := Emit(e2, p.clean, cl);
    assert Ranks([]) == [];
    EmitRanks([], p.collect, c);
    EmitRanks(e1, p.report, rep);
    EmitRanks(e2, p.clean, cl);
    EmitRanks(e3, p.detect, d);
  }

  /**
    The scheduled part of a pass leaves one event per action that fires,
    in the order collect, report, clean, detect.
  */
  lemma PerformEventOrder(st: Store, p: Plan, probe: Probe, now: int, neverDelete: bool)
    ensures Ranks(Perform(st, p, probe, now, neverDelete).1) == Fired(p)
  {
    var st1 := AfterCollect(st, p, probe, now);
    var cleaned := CleanOldData(st1, now, neverDelete);
    var st2 := if p.clean then cleaned.0 else st1;
    PerformUnfolds(st, p, probe, now, neverDelete);
    EmittedRanks(p, Collected(Poll(st.servers, probe, now)), Reported(Report(st1, now, 1)),
                 Cleaned(cleaned.1), Detected(DetectAnomalies(st2)));
  }

  /** Every event emitted from four candidates is one of the candidates whose action fires. */
  lemma EmittedFrom(p: Plan, c: Event, rep: Event, cl: Event, d: Event, e: Event)
    requires e in Emit(Emit(Emit(Emit([], p.collect, c), p.report, rep), p.clean, cl), p.detect, d)
    ensures (p.collect && e == c) || (p.report && e == rep) || (p.clean && e == cl) || (p.detect && e == d)
  {
    var e1 := Emit([], p.collect, c);
    var e2 := Emit(e1, p.report, rep);
    var e3 := Emit(e2, p.clean, cl);
    EmitHas([], p.collect, c, e);
    EmitHas(e1, p.report, rep, e);
    EmitHas(e2, p.clean, cl, e);
    EmitHas(e3, p.detect, d, e);
  }

  /**
    What the events of the scheduled part of a pass carry: the round
    polled, the report taken on the store with that round, a retention
    count absent exactly when data is never deleted, and the verdicts read
    from the store the pass leaves.
  */
  lemma PerformEventContents(st: Store, p: Plan, probe: Probe, now: int, neverDelete: bool, e: Event)
    requires e in Perform(st, p, probe, now, neverDelete).1
    ensures var polled := if p.collect then Poll(st.servers, probe, now) else [];
      && (e.Collected? ==> e.batch == Poll(st.servers, probe, now))
      && (e.Reported? ==> e.rows == Report(Store(st.servers, st.samples + polled, st.nextId), now, 1))
      && (e.Cleaned? ==> (e.deleted.None? <==> neverDelete))
      && (e.Detected? ==> e.verdicts == DetectAnomalies(Perform(st, p, probe, now, neverDelete).0))
  {
    var st1 := AfterCollect(st, p, probe, now);
    var cleaned := CleanOldData(st1, now, neverDelete);
    var st2 := if p.clean then cleaned.0 else st1;
    PerformUnfolds(st, p, probe, now, neverDelete);
    PassEventContents(st, p, probe, now, st1, cleaned.1, st2, e);
  }

  /** `Perform` is the collection, the cleaning and the events of the pass. */
  lemma PerformUnfolds(st: Store, p: Plan, probe: Probe, now: int, neverDelete: bool)
    ensures var st1 := AfterCollect(st, p, probe, now);
            var cleaned := CleanOldData(st1, now, neverDelete);
            var st2 := if p.clean then cleaned.0 else st1;
            Perform(st, p, probe, now, neverDelete) == (st2, PassEvents(st, p, probe, now, st1, cleaned.1, st2))
  {
  }

  /** Each event of a pass is the candidate of its kind. */
  lemma PassEventContents(st: Store, p: Plan, probe: Probe, now: int, st1: Store, deleted: Option<nat>, st2: Store, e: Event)
    requires e in PassEvents(st, p, probe, now, st1, deleted, st2)
    ensures e.Collected? ==> e.batch == Poll(st.servers, probe, now)
    ensures e.Reported? ==> e.rows == Report(st1, now, 1)
    ensures e.Cleaned? ==> e.deleted == deleted
    ensures e.Detected? ==> e.verdicts == DetectAnomalies(st2)
  {
    EmittedFrom(p, Collected(Poll(st.servers, probe, now)), Reported(Report(st1, now, 1)),
                Cleaned(deleted), Detected(DetectAnomalies(st2)), e);
  }

  /**
    One pass of `run`'s loop: the commands, then the scheduled actions,
    then the markers. The wall reading stamps the samples and stands for
    SQLite's `'now'` throughout the pass.
  */
  function Tick(mon: Monitor, cmds: seq<string>, probe: Probe, r: Readings): (out: (Monitor, seq<Event>))
    requires mon.running
    ensures out.0.running <==> "exit" !in cmds
    ensures out.0.neverDelete == mon.neverDelete
    ensures out.0.markers == Advance(r, mon.markers, Decide(r, mon.markers, Interval))
    ensures Valid(mon.store) ==> Valid(out.0.store)
    ensures |out.1| >= |cmds|
    ensures AnsweredInTurn(mon.store, cmds, Env(probe, r.wall, mon.neverDelete), out.1[..|cmds|])
    ensures var env := Env(probe, r.wall, mon.neverDelete);
            var performed := Perform(Drain(mon.store, cmds, env).0, Decide(r, mon.markers, Interval), probe, r.wall, mon.neverDelete);
            && out.0.store == performed.0
            && out.1[|cmds|..] == performed.1
  {
    var env := Env(probe, r.wall, mon.neverDelete);
    var drained := Drain(mon.store, cmds, env);
    DrainPrefix(mon.store, cmds, env);
    var p := Decide(r, mon.markers, Interval);
    var performed := Perform(drained.0, p, probe, r.wall, mon.neverDelete);
    assert (drained.1 + performed.1)[..|cmds|] == drained.1;
    assert (drained.1 + performed.1)[|cmds|..] == performed.1;
    (Monitor(performed.0, Advance(r, mon.markers, p), "exit" !in cmds, mon.neverDelete), drained.1 + performed.1)
  }

  /** Each of `events` answers its command on the store the earlier commands left. */
  predicate AnsweredInTurn(st: Store, cmds: seq<string>, env: Env, events: seq<Event>) {
    && |events| == |cmds|
    && forall k :: 0 <= k < |cmds| ==>
         events[k] == Answered(cmds[k], Execute(Drain(st, cmds[..k], env).0, cmds[k], env).1)
  }

  /** The answer to the `k`-th command is given on the store the earlier commands left. */
  lemma {:induction false} DrainPrefix(st: Store, cmds: seq<string>, env: Env)
    ensures AnsweredInTurn(st, cmds, env, Drain(st, cmds, env).1)
  {
    forall k | 0 <= k < |cmds|
      ensures Drain(st, cmds, env).1[k] == Answered(cmds[k], Execute(Drain(st, cmds[..k], env).0, cmds[k], env).1)
    {
      DrainAt(st, cmds, env, k);
    }
  }

  /** The `k`-th answer, one command at a time. */
  lemma {:induction false} DrainAt(st: Store, cmds: seq<string>, env: Env, k: nat)
    requires k < |cmds|
    ensures Drain(st, cmds, env).1[k] == Answered(cmds[k], Execute(Drain(st, cmds[..k], env).0, cmds[k], env).1)
    decreases k
  {
    var first := Execute(st, cmds[0], env);
    if k == 0 {
      assert cmds[..0] == [];
    } else {
      DrainAt(first.0, cmds[1..], env, k - 1);
      assert cmds[..k][0] == cmds[0];
      assert cmds[..k][1..] == cmds[1..][..k - 1];
      assert cmds[1..][k - 1] == cmds[k];
    }
  }

  /**
    An `exit` does not cut the pass short: the scheduled actions of the
    pass still run and come after every command's answer.
  */
  lemma ExitStillRunsSchedule(mon: Monitor, cmds: seq<string>, probe: Probe, r: Readings)
    requires mon.running && "exit" in cmds
    ensures var out := Tick(mon, cmds, probe, r);
            && !out.0.running
            && Ranks(out.1[|cmds|..]) == Fired(Decide(r, mon.markers, Interval))
  {
    var env := Env(probe, r.wall, mon.neverDelete);
    var drained := Drain(mon.store, cmds, env);
    var p := Decide(r, mon.markers, Interval);
    var performed := Perform(drained.0, p, probe, r.wall, mon.neverDelete);
    assert Tick(mon, cmds, probe, r).1 == drained.1 + performed.1;
    assert (drained.1 + performed.1)[|cmds|..] == performed.1;
    PerformEventOrder(drained.0, p, probe, r.wall, mon.neverDelete);
  }

}

=== FILE: seqs.dfy ===
/**
  Selecting the rows of a table that satisfy a condition, the shape of
  every `WHERE` clause the monitor issues.
*/
module Seqs {

  /** The elements of `xs` that satisfy `p`, in their original order. */
  function Filter<T(!new)>(p: T -> bool, xs: seq<T>): (r: seq<T>)
    ensures |r| <= |xs|
    ensures forall i :: 0 <= i < |r| ==> p(r[i])
    ensures |r| == |xs| <==> forall i :: 0 <= i < |xs| ==> p(xs[i])
    decreases |xs|
  {
    if |xs| == 0 then []
    else if p(xs[0]) then [xs[0]] + Filter(p, xs[1..]) else Filter(p, xs[1..])
  }

  /** Filtering keeps every occurrence of a passing element and drops every other. */
  lemma {:induction false} FilterMultiset<T(!new)>(p: T -> bool, xs: seq<T>, x: T)
    ensures multiset(Filter(p, xs))[x] == if p(x) then multiset(xs)[x] else 0
    decreases |xs|
  {
    if |xs| > 0 {
      assert xs == [xs[0]] + xs[1..];
      FilterMultiset(p, xs[1..], x);
    }
  }

  lemma FilterMembership<T(!new)>(p: T -> bool, xs: seq<T>, x: T)
    ensures x in Filter(p, xs) <==> x in xs && p(x)
  {
    FilterMultiset(p, xs, x);
    var r := Filter(p, xs);
    assert x in r <==> multiset(r)[x] > 0;
    assert x in xs <==> multiset(xs)[x] > 0;
  }

  /** Every earlier element of `xs` stands in `rel` to every later one. */
  predicate Pairwise<T>(rel: (T, T) -> bool, xs: seq<T>) {
    forall i, j :: 0 <= i < j < |xs| ==> rel(xs[i], xs[j])
  }

  /** A relation every earlier/later pair of `xs` satisfies still holds after filtering. */
  lemma {:induction false} FilterKeepsPairwise<T(!new)>(p: T -> bool, xs: seq<T>, rel: (T, T) -> bool)
    requires Pairwise(rel, xs)
    ensures Pairwise(rel, Filter(p, xs))
    decreases |xs|
  {
    if |xs| > 0 {
      var tail := xs[1..];
      assert Pairwise(rel, tail) by {
        forall i, j | 0 <= i < j < |tail| ensures rel(tail[i], tail[j]) {
          assert tail[i] == xs[i + 1] && tail[j] == xs[j + 1];
        }
      }
      FilterKeepsPairwise(p, tail, rel);
      var rt := Filter(p, tail);
      if p(xs[0]) {
        var r := [xs[0]] + rt;
        forall i, j | 0 <= i < j < |r| ensures rel(r[i], r[j]) {
          assert r[j] == rt[j - 1];
          if i == 0 {
            FilterMembership(p, tail, r[j]);
            var k :| 0 <= k < |tail| && tail[k] == r[j];
            assert xs[k + 1] == r[j] && r[0] == xs[0];
          } else {
            assert r[i] == rt[i - 1];
          }
        }
        assert Filter(p, xs) == r;
      }
    }
  }

  lemma {:induction false} FilterAll<T(!new)>(p: T -> bool, xs: seq<T>)
    requires forall i :: 0 <= i < |xs| ==> p(xs[i])
    ensures Filter(p, xs) == xs
    decreases |xs|
  {
    if |xs| > 0 {
      FilterAll(p, xs[1..]);
    }
  }

  /** Each element either passes `p` or passes its complement `q`. */
  lemma {:induction false} FilterComplement<T(!new)>(p: T -> bool, q: T -> bool, xs: seq<T>)
    requires forall x :: q(x) == !p(x)
    ensures |Filter(p, xs)| + |Filter(q, xs)| == |xs|
    decreases |xs|
  {
    if |xs| > 0 {
      FilterComplement(p, q, xs[1..]);
    }
  }

  lemma {:induction false} FilterAppend<T(!new)>(p: T -> bool, a: seq<T>, b: seq<T>)
    ensures Filter(p, a + b) == Filter(p, a) + Filter(p, b)
    decreases |a|
  {
    if |a| == 0 {
      assert a + b == b;
    } else {
      assert (a + b)[0] == a[0];
      assert (a + b)[1..] == a[1..] + b;
      FilterAppend(p, a[1..], b);
    }
  }
}

=== FILE: store.dfy ===
/**
  The monitor's two tables as immutable values, and the writes the monitor
  performs on them: registering and removing servers, purging one server's
  history, retention, and the polling round that appends samples.
*/
module Store {
  import opened Optional
  import opened Seqs

  /** Seconds in a day: SQLite's `'-N days'` modifier and Python's `timedelta.days`. */
  const Day: int := 86400
  /** Samples older than this many days are purged by retention. */
  const RetentionDays: int := 30

  /**
    A row of `servers`. `id` is the AUTOINCREMENT key, `ip` the address
    handed to the status query.
  */
  datatype Server = Server(id: nat, name: string, ip: string)

  /**
    A row of `stats`: the online-player count a server reported and the
    instant it was stored, as UTC seconds since the Unix epoch (SQLite's
    CURRENT_TIMESTAMP at one-second resolution).
  */
  datatype Sample = Sample(serverId: nat, online: int, timestamp: int)

  /**
    Both tables. `servers` is in rowid order, which is the order an
    unordered `SELECT` lists them; `samples` is in insertion order;
    `nextId` is the smallest id AUTOINCREMENT has not handed out yet.
  */
  datatype Store = Store(servers: seq<Server>, samples: seq<Sample>, nextId: nat)

  /**
    The status query (`JavaServer.lookup(ip, timeout=2).status()`): the
    number of players online, or `None` for any failure.
  */
  type Probe = string -> Option<int>

  /** Two rows of `servers`, the first inserted before the second. */
  predicate Precedes(a: Server, b: Server) {
    a.id < b.id && a.name != b.name && a.ip != b.ip
  }

  /**
    What the schema and AUTOINCREMENT guarantee: unique names and
    addresses, positive ids increasing in listing order and below `nextId`,
    and every sample tagged with an id that was handed out.
  */
  predicate Valid(st: Store) {
    && st.nextId >= 1
    && Pairwise(Precedes, st.servers)
    && (forall i :: 0 <= i < |st.servers| ==> 1 <= st.servers[i].id < st.nextId)
    && (forall k :: 0 <= k < |st.samples| ==> st.samples[k].serverId < st.nextId)
  }

  predicate HasName(servers: seq<Server>, name: string) {
    exists i :: 0 <= i < |servers| && servers[i].name == name
  }

  predicate HasIp(servers: seq<Server>, ip: string) {
    exists i :: 0 <= i < |servers| && servers[i].ip == ip
  }

  /** `SELECT id FROM servers WHERE name = ?`, first row. */
  function IdOf(servers: seq<Server>, name: string): (r: Option<nat>)
    ensures r.None? <==> !HasName(servers, name)
    ensures r.Some? ==> exists i :: 0 <= i < |servers| && servers[i].name == name && servers[i].id == r.value
    decreases |servers|
  {
    if |servers| == 0 then None
    else if servers[0].name == name then Some(servers[0].id)
    else
      var r := IdOf(servers[1..], name);
      assert HasName(servers, name) ==> HasName(servers[1..], name) by {
        if HasName(servers, name) {
          var i :| 0 <= i < |servers| && servers[i].name == name;
          assert servers[1..][i - 1] == servers[i];
        }
      }
      assert r.Some? ==> exists i :: 0 <= i < |servers| && servers[i].name == name && servers[i].id == r.value by {
        if r.Some? {
          var i :| 0 <= i < |servers[1..]| && servers[1..][i].name == name && servers[1..][i].id == r.value;
          assert servers[i + 1] == servers[1..][i];
        }
      }
      r
  }

  /** With unique names, the id found for a registered name is that server's id. */
  lemma IdOfRegistered(st: Store, i: int)
    requires Valid(st)
    requires 0 <= i < |st.servers|
    ensures IdOf(st.servers, st.servers[i].name) == Some(st.servers[i].id)
  {
    var r := IdOf(st.servers, st.servers[i].name);
    var j :| 0 <= j < |st.servers| && st.servers[j].name == st.servers[i].name && st.servers[j].id == r.value;
  }

  datatype AddOutcome =
    | Added
    | Unreachable   // the status query failed, so nothing was inserted
    | Duplicate     // the INSERT violated UNIQUE(name) or UNIQUE(ip)

  /**
    `add_server`: query the address first; only a reachable server is
    inserted, and the insert is refused when the name or the address is
    already registered. A refused insert consumes no id.
  */
  function AddServer(st: Store, name: string, ip: string, probe: Probe): (r: (Store, AddOutcome))
    ensures r.1 == Unreachable <==> probe(ip).None?
    ensures r.1 == Duplicate <==> probe(ip).Some? && (HasName(st.servers, name) || HasIp(st.servers, ip))
    ensures r.1 != Added ==> r.0 == st
    ensures r.1 == Added ==> && r.0.servers == st.servers + [Server(st.nextId, name, ip)]
                             && r.0.samples == st.samples
                             && r.0.nextId == st.nextId + 1
    ensures Valid(st) ==> Valid(r.0)
  {
    if probe(ip).None? then (st, Unreachable)
    else if HasName(st.servers, name) || HasIp(st.servers, ip) then (st, Duplicate)
    else
      var row := Server(st.nextId, name, ip);
      var st' := Store(st.servers + [row], st.samples, st.nextId + 1);
      assert Valid(st) ==> Valid(st') by {
        if Valid(st) {
          forall i, j | 0 <= i < j < |st'.servers| ensures Precedes(st'.servers[i], st'.servers[j]) {
            if j == |st.servers| {
              assert st'.servers[i] == st.servers[i];
            } else {
              assert st'.servers[i] == st.servers[i] && st'.servers[j] == st.servers[j];
            }
          }
        }
      }
      (st', Added)
  }

  /** Selects the rows of `servers` that do not carry `name`. */
  function NotNamed(name: string): Server -> bool {
    (s: Server) => s.name != name
  }

  /**
    `remove_server`: `DELETE FROM servers WHERE name = ?`, reporting whether
    a row was deleted. No foreign-key enforcement is switched on, so the
    server's samples stay in `stats`.
  */
  function RemoveServer(st: Store, name: string): (r: (Store, bool))
    ensures r.1 <==> HasName(st.servers, name)
    ensures !HasName(r.0.servers, name)
    ensures forall i :: 0 <= i < |st.servers| && st.servers[i].name != name ==> st.servers[i] in r.0.servers
    ensures forall s :: s in r.0.servers ==> s in st.servers
    ensures r.0.samples == st.samples && r.0.nextId == st.nextId
    ensures Valid(st) ==> Valid(r.0)
  {
    var kept := Filter(NotNamed(name), st.servers);
    assert forall s: Server :: s in kept <==> s in st.servers && s.name != name by {
      forall s: Server ensures s in kept <==> s in st.servers && s.name != name {
        FilterMembership(NotNamed(name), st.servers, s);
      }
    }
    assert Valid(st) ==> Pairwise(Precedes, kept) by {
      if Valid(st) {
        FilterKeepsPairwise(NotNamed(name), st.servers, Precedes);
      }
    }
    (Store(kept, st.samples, st.nextId), |kept| < |st.servers|)
  }

  /** Selects the samples not tagged with `id`. */
  function NotOf(id: nat): Sample -> bool {
    (s: Sample) => s.serverId != id
  }

  /**
    `delete_server_data`: look the name up, give up when no id comes back
    (the Python test `not server_id`, which also rejects an id of 0), and
    otherwise delete every sample tagged with that id, reporting how many.
  */
  function DeleteServerData(st: Store, name: string): (r: (Store, Option<nat>))
    ensures r.0.servers == st.servers && r.0.nextId == st.nextId
    ensures r.1.None? ==> r.0 == st
    ensures !HasName(st.servers, name) ==> r == (st, None)
    ensures Valid(st) && HasName(st.servers, name) ==> r.1.Some?
    ensures r.1.Some? ==> && IdOf(st.servers, name).Some?
                          && r.1.value == |st.samples| - |r.0.samples|
                          && (forall k :: 0 <= k < |r.0.samples| ==> r.0.samples[k].serverId != IdOf(st.servers, name).value)
                          && (forall s: Sample :: s.serverId != IdOf(st.servers, name).value ==>
                                multiset(r.0.samples)[s] == multiset(st.samples)[s])
    ensures Valid(st) ==> Valid(r.0)
  {
    match IdOf(st.servers, name)
    case None => (st, None)
    case Some(id) =>
      if id == 0 then
        assert Valid(st) ==> !HasName(st.servers, name);
        (st, None)
      else
        var kept := Filter(NotOf(id), st.samples);
        KeptWithout(st.samples, id);
        (Store(st.servers, kept, st.nextId), Some(|st.samples| - |kept|))
  }

  /** Dropping the samples of one server keeps every other sample with its multiplicity, and adds none. */
  lemma KeptWithout(samples: seq<Sample>, id: nat)
    ensures forall s: Sample :: s.serverId != id ==> multiset(Filter(NotOf(id), samples))[s] == multiset(samples)[s]
    ensures forall k :: 0 <= k < |Filter(NotOf(id), samples)| ==> Filter(NotOf(id), samples)[k] in samples
  {
    var kept := Filter(NotOf(id), samples);
    forall s: Sample | s.serverId != id ensures multiset(kept)[s] == multiset(samples)[s] {
      FilterMultiset(NotOf(id), samples, s);
    }
    forall k | 0 <= k < |kept| ensures kept[k] in samples {
      FilterMembership(NotOf(id), samples, kept[k]);
    }
  }

  /** Selects the samples strictly older than `cutoff`. */
  function StaleBefore(cutoff: int): Sample -> bool {
    (s: Sample) => s.timestamp < cutoff
  }

  /** Selects the samples at or after `cutoff`. */
  function KeptFrom(cutoff: int): Sample -> bool {
    (s: Sample) => s.timestamp >= cutoff
  }

  /** The instant before which retention deletes, thirty days before `now`. */
  function RetentionCutoff(now: int): int {
    now - RetentionDays * Day
  }

  /**
    `clean_old_data`: nothing when data is never deleted (no count is
    reported then); otherwise `DELETE FROM stats WHERE timestamp <
    datetime('now', '-30 days')`, reporting the number of rows deleted.
  */
  function CleanOldData(st: Store, now: int, neverDelete: bool): (r: (Store, Option<nat>))
    ensures neverDelete ==> r == (st, None)
    ensures !neverDelete ==> r.1.Some?
    ensures r.0.servers == st.servers && r.0.nextId == st.nextId
    ensures forall k :: 0 <= k < |r.0.samples| && !neverDelete ==> r.0.samples[k].timestamp >= RetentionCutoff(now)
    ensures forall s: Sample :: s.timestamp >= RetentionCutoff(now) ==> multiset(r.0.samples)[s] == multiset(st.samples)[s]
    ensures r.1.Some? ==> r.1.value == |Filter(StaleBefore(RetentionCutoff(now)), st.samples)|
    ensures Valid(st) ==> Valid(r.0)
  {
    if neverDelete then (st, None)
    else
      var cutoff := RetentionCutoff(now);
      var kept := Filter(KeptFrom(cutoff), st.samples);
      FilterComplement(KeptFrom(cutoff), StaleBefore(cutoff), st.samples);
      assert forall s: Sample :: s.timestamp >= cutoff ==> multiset(kept)[s] == multiset(st.samples)[s] by {
        forall s: Sample | s.timestamp >= cutoff ensures multiset(kept)[s] == multiset(st.samples)[s] {
          FilterMultiset(KeptFrom(cutoff), st.samples, s);
        }
      }
      assert Valid(st) ==> forall k :: 0 <= k < |kept| ==> kept[k].serverId < st.nextId by {
        forall k | 0 <= k < |kept| ensures kept[k] in st.samples {
          FilterMembership(KeptFrom(cutoff), st.samples, kept[k]);
        }
      }
      (Store(st.servers, kept, st.nextId), Some(|st.samples| - |kept|))
  }

  /** Selects the servers whose status query succeeds. */
  function Answers(probe: Probe): Server -> bool {
    (s: Server) => probe(s.ip).Some?
  }

  /**
    One polling round over `servers` in listing order: a sample stamped
    `now` for each server whose status query succeeds; a failing server is
    skipped and the round goes on.
  */
  function Poll(servers: seq<Server>, probe: Probe, now: int): (batch: seq<Sample>)
    ensures var up := Filter(Answers(probe), servers);
      && |batch| == |up|
      && forall k :: 0 <= k < |batch| ==>
           batch[k] == Sample(up[k].id, probe(up[k].ip).value, now)
    decreases |servers|
  {
    if |servers| == 0 then []
    else
      var rest := Poll(servers[1..], probe, now);
      match probe(servers[0].ip)
      case None => rest
      case Some(n) => [Sample(servers[0].id, n, now)] + rest
  }

  /** `collect_data`: one polling round over every registered server, appended to `stats`. */
  function CollectData(st: Store, probe: Probe, now: int): (r: Store)
    ensures r.servers == st.servers && r.nextId == st.nextId
    ensures r.samples == st.samples + Poll(st.servers, probe, now)
    ensures Valid(st) ==> Valid(r)
  {
    if |st.servers| == 0 then st
    else
      var batch := Poll(st.servers, probe, now);
      var up := Filter(Answers(probe), st.servers);
      assert forall k :: 0 <= k < |batch| ==> batch[k].serverId == up[k].id;
      assert Valid(st) ==> forall k :: 0 <= k < |batch| ==> batch[k].serverId < st.nextId by {
        forall k | 0 <= k < |batch| ensures up[k] in st.servers {
          FilterMembership(Answers(probe), st.servers, up[k]);
        }
      }
      Store(st.servers, st.samples + batch, st.nextId)
  }

  /** Selects the servers at any address but `ip`. */
  function NotAt(ip: string): Server -> bool {
    (s: Server) => s.ip != ip
  }

  /**
    A server that stops answering costs only its own sample: the round
    is the round over the other servers with the old answers.
  */
  lemma {:induction false} FailureIsIsolated(servers: seq<Server>, probe: Probe, probe': Probe, ip: string, now: int)
    requires forall a :: a != ip ==> probe'(a) == probe(a)
    requires probe'(ip).None?
    ensures Poll(servers, probe', now) == Poll(Filter(NotAt(ip), servers), probe, now)
    decreases |servers|
  {
    if |servers| > 0 {
      FailureIsIsolated(servers[1..], probe, probe', ip, now);
    }
  }

  /** Removing a server and registering the name again never brings back its old samples. */
  lemma ReAddedServerHasFreshId(st: Store, name: string, ip: string, probe: Probe)
    requires Valid(st)
    ensures var (st1, _) := RemoveServer(st, name);
            var (st2, outcome) := AddServer(st1, name, ip, probe);
            outcome == Added ==>
              && IdOf(st2.servers, name) == Some(st.nextId)
              && forall k :: 0 <= k < |st2.samples| ==> st2.samples[k].serverId != st.nextId
  {
    var (st1, _) := RemoveServer(st, name);
    var (st2, outcome) := AddServer(st1, name, ip, probe);
    if outcome == Added {
      IdOfRegistered(st2, |st2.servers| - 1);
    }
  }

  /** Registering a server and removing it by name restores the server table. */
  lemma AddThenRemove(st: Store, name: string, ip: string, probe: Probe)
    requires Valid(st)
    ensures var (st1, outcome) := AddServer(st, name, ip, probe);
            var (st2, found) := RemoveServer(st1, name);
            outcome == Added ==> found && st2.servers == st.servers
  {
    var (st1, outcome) := AddServer(st, name, ip, probe);
    if outcome == Added {
      var (st2, found) := RemoveServer(st1, name);
      FilterAppend(NotNamed(name), st.servers, [Server(st.nextId, name, ip)]);
      FilterAll(NotNamed(name), st.servers);
    }
  }
}

=== FILE: text.dfy ===
/**
  The string handling the command interpreter relies on: Python's
  `str.split()` with no separator, `str.startswith`, and `int()` applied to
  one whitespace-free token.
*/
module Text {
  import opened Optional

  /** Python's `str.isspace()`: the characters `str.split()` separates on. */
  predicate IsSpace(c: char) {
    || c == ' ' || c == '\t' || c == '\n' || c == '\r'
    || c == '\U{0B}' || c == '\U{0C}'
    || ('\U{1C}' <= c <= '\U{1F}')
    || c == '\U{85}' || c == '\U{A0}' || c == '\U{1680}'
    || ('\U{2000}' <= c <= '\U{200A}')
    || c == '\U{2028}' || c == '\U{2029}' || c == '\U{202F}'
    || c == '\U{205F}' || c == '\U{3000}'
  }

  /** A word `str.split()` can return: non-empty, without whitespace. */
  predicate IsToken(t: string) {
    |t| > 0 && forall i :: 0 <= i < |t| ==> !IsSpace(t[i])
  }

  /** `s.startswith(p)`. */
  predicate StartsWith(s: string, p: string) {
    |p| <= |s| && s[..|p|] == p
  }

  /** Length of the run of non-whitespace characters that opens `s`. */
  function TokenLength(s: string): (n: nat)
    requires |s| > 0 && !IsSpace(s[0])
    ensures 0 < n <= |s|
    ensures forall i :: 0 <= i < n ==> !IsSpace(s[i])
    ensures n == |s| || IsSpace(s[n])
    decreases |s|
  {
    if |s| == 1 || IsSpace(s[1]) then 1 else 1 + TokenLength(s[1..])
  }

  /** `s.split()`: the maximal whitespace-free runs of `s`, in order. */
  function Split(s: string): (parts: seq<string>)
    ensures forall k :: 0 <= k < |parts| ==> IsToken(parts[k])
    ensures |s| == 0 ==> parts == []
    decreases |s|
  {
    if |s| == 0 then []
    else if IsSpace(s[0]) then Split(s[1..])
    else
      var n := TokenLength(s);
      [s[..n]] + Split(s[n..])
  }

  /** A run of whitespace in front of a line adds no word, however long it is. */
  lemma {:induction false} SplitSkipsSpaces(gap: string, s: string)
    requires forall i :: 0 <= i < |gap| ==> IsSpace(gap[i])
    ensures Split(gap + s) == Split(s)
    decreases |gap|
  {
    if |gap| > 0 {
      assert (gap + s)[1..] == gap[1..] + s;
      SplitSkipsSpaces(gap[1..], s);
    } else {
      assert gap + s == s;
    }
  }

  /** A word ended by a run of whitespace is one word of the split, whatever the run's length. */
  lemma SplitWordGap(t: string, gap: string, rest: string)
    requires IsToken(t)
    requires |gap| > 0 && forall i :: 0 <= i < |gap| ==> IsSpace(gap[i])
    ensures Split(t + gap + rest) == [t] + Split(rest)
  {
    var s := t + gap + rest;
    assert s == t + (gap + rest);
    TokenLengthOfWord(t, gap + rest);
    assert s[..|t|] == t;
    assert s[|t|..] == gap + rest;
    SplitSkipsSpaces(gap, rest);
  }

  /**
    Three words with runs of whitespace of any length between them split
    into exactly those words: `add  x  y` is an add of `x` at `y`.
  */
  lemma SplitThreeWords(a: string, g1: string, b: string, g2: string, c: string)
    requires IsToken(a) && IsToken(b) && IsToken(c)
    requires |g1| > 0 && forall i :: 0 <= i < |g1| ==> IsSpace(g1[i])
    requires |g2| > 0 && forall i :: 0 <= i < |g2| ==> IsSpace(g2[i])
    ensures Split(a + g1 + b + g2 + c) == [a, b, c]
  {
    var rest := b + g2 + c;
    assert a + g1 + b + g2 + c == a + g1 + rest;
    SplitWordGap(a, g1, rest);
    SplitWordGap(b, g2, c);
    SplitOneWord(c);
    assert [a] + ([b] + [c]) == [a, b, c];
  }

  /** A single word splits into itself. */
  lemma SplitOneWord(t: string)
    requires IsToken(t)
    ensures Split(t) == [t]
  {
    TokenLengthOfWord(t, "");
    assert t + "" == t;
    assert t[..|t|] == t && t[|t|..] == "";
  }

  /** The words joined by single spaces: `' '.join(words)`. */
  function Unsplit(words: seq<string>): string
    decreases |words|
  {
    if |words| == 0 then ""
    else if |words| == 1 then words[0]
    else words[0] + " " + Unsplit(words[1..])
  }

  /** The characters of `s` that are not whitespace, in order. */
  function Visible(s: string): string
    decreases |s|
  {
    if |s| == 0 then ""
    else if IsSpace(s[0]) then Visible(s[1..])
    else [s[0]] + Visible(s[1..])
  }

  /** All words laid end to end. */
  function Concat(words: seq<string>): string
    decreases |words|
  {
    if |words| == 0 then "" else words[0] + Concat(words[1..])
  }

  lemma {:induction false} ConcatAppend(a: seq<string>, b: seq<string>)
    ensures Concat(a + b) == Concat(a) + Concat(b)
    decreases |a|
  {
    if |a| == 0 {
      assert a + b == b;
    } else {
      assert (a + b)[1..] == a[1..] + b;
      ConcatAppend(a[1..], b);
    }
  }

  lemma {:induction false} VisibleAppend(a: string, b: string)
    ensures Visible(a + b) == Visible(a) + Visible(b)
    decreases |a|
  {
    if |a| == 0 {
      assert a + b == b;
    } else {
      assert (a + b)[1..] == a[1..] + b;
      VisibleAppend(a[1..], b);
    }
  }

  lemma {:induction false} VisibleOfToken(t: string)
    requires forall i :: 0 <= i < |t| ==> !IsSpace(t[i])
    ensures Visible(t) == t
    decreases |t|
  {
    if |t| > 0 {
      VisibleOfToken(t[1..]);
      assert t == [t[0]] + t[1..];
    }
  }

  /** Splitting loses no character except whitespace. */
  lemma {:induction false} SplitKeepsVisible(s: string)
    ensures Concat(Split(s)) == Visible(s)
    decreases |s|
  {
    if |s| == 0 {
    } else if IsSpace(s[0]) {
      SplitKeepsVisible(s[1..]);
    } else {
      var n := TokenLength(s);
      SplitKeepsVisible(s[n..]);
      ConcatAppend([s[..n]], Split(s[n..]));
      assert Concat([s[..n]]) == s[..n] by {
        assert [s[..n]][1..] == [];
      }
      assert s == s[..n] + s[n..];
      VisibleAppend(s[..n], s[n..]);
      VisibleOfToken(s[..n]);
    }
  }

  lemma {:induction false} TokenLengthOfWord(t: string, rest: string)
    requires IsToken(t)
    requires |rest| == 0 || IsSpace(rest[0])
    ensures TokenLength(t + rest) == |t|
    decreases |t|
  {
    if |t| > 1 {
      assert (t + rest)[1..] == t[1..] + rest;
      TokenLengthOfWord(t[1..], rest);
    }
  }

  /** Words joined by single spaces split back into the same words. */
  lemma {:induction false} SplitUnsplit(words: seq<string>)
    requires forall k :: 0 <= k < |words| ==> IsToken(words[k])
    ensures Split(Unsplit(words)) == words
    decreases |words|
  {
    if |words| == 0 {
    } else if |words| == 1 {
      var t := words[0];
      TokenLengthOfWord(t, "");
      assert t + "" == t;
      assert t[|t|..] == "";
      assert t[..|t|] == t;
    } else {
      var t, rest := words[0], Unsplit(words[1..]);
      var s := t + " " + rest;
      assert s == t + (" " + rest);
      TokenLengthOfWord(t, " " + rest);
      assert s[..|t|] == t;
      assert s[|t|..] == " " + rest;
      assert (" " + rest)[1..] == rest;
      SplitUnsplit(words[1..]);
      assert Split(s[|t|..]) == Split(rest);
      assert words == [t] + words[1..];
    }
  }

  predicate IsDigit(c: char) {
    '0' <= c <= '9'
  }

  function DigitValue(c: char): (d: nat)
    requires IsDigit(c)
    ensures d < 10
  {
    (c as int) - ('0' as int)
  }

  function DigitChar(d: nat): (c: char)
    requires d < 10
    ensures IsDigit(c) && DigitValue(c) == d
  {
    (('0' as int) + d) as char
  }

  /**
    The body of a Python integer literal: decimal digits, with single
    underscores allowed between two digits (`1_000`).
  */
  predicate IsDigitGroup(s: string) {
    && |s| > 0
    && IsDigit(s[0])
    && IsDigit(s[|s| - 1])
    && (forall i :: 0 <= i < |s| ==> IsDigit(s[i]) || s[i] == '_')
    && (forall i :: 0 <= i < |s| - 1 ==> s[i] == '_' ==> s[i + 1] != '_')
  }

  /** The number written by digits and underscores, underscores ignored. */
  function DigitsValue(s: string): nat
    requires forall i :: 0 <= i < |s| ==> IsDigit(s[i]) || s[i] == '_'
    decreases |s|
  {
    if |s| == 0 then 0
    else if s[|s| - 1] == '_' then DigitsValue(s[..|s| - 1])
    else 10 * DigitsValue(s[..|s| - 1]) + DigitValue(s[|s| - 1])
  }

  /** The token opens with a sign character. */
  predicate IsSign(token: string) {
    |token| > 0 && (token[0] == '+' || token[0] == '-')
  }

  /**
    Python's `int(token)` for a token `str.split()` produced: an optional
    sign followed by a digit group. `None` is the `ValueError` case.
  */
  function ParseInt(token: string): (r: Option<int>)
    ensures r.Some? <==> IsDigitGroup(token) || (IsSign(token) && IsDigitGroup(token[1..]))
    ensures (exists i :: 0 <= i < |token| && !IsDigit(token[i]) && token[i] != '_'
               && token[i] != '+' && token[i] != '-') ==> r.None?
    ensures r.Some? && IsDigitGroup(token) ==> r.value == DigitsValue(token)
    ensures r.Some? && IsSign(token) && token[0] == '+' ==> r.value == DigitsValue(token[1..])
    ensures r.Some? && IsSign(token) && token[0] == '-' ==> r.value == 0 - DigitsValue(token[1..])
  {
    if IsSign(token) then
      var body := token[1..];
      if IsDigitGroup(body) then
        assert forall i :: 1 <= i < |token| ==> token[i] == body[i - 1];
        var v: int := DigitsValue(body);
        Some(if token[0] == '-' then -v else v)
      else None
    else if IsDigitGroup(token) then Some(DigitsValue(token))
    else None
  }

  /** Decimal digits of `n` without sign or underscores: Python's `str(n)`. */
  function ShowNat(n: nat): (s: string)
    ensures |s| > 0
    ensures forall i :: 0 <= i < |s| ==> IsDigit(s[i])
    decreases n
  {
    if n < 10 then [DigitChar(n)] else ShowNat(n / 10) + [DigitChar(n % 10)]
  }

  /** Python's `str(n)` for any integer. */
  function ShowInt(n: int): string {
    if n < 0 then "-" + ShowNat(-n) else ShowNat(n)
  }

  lemma {:induction false} ShowNatValue(n: nat)
    ensures DigitsValue(ShowNat(n)) == n
    decreases n
  {
    var s := ShowNat(n);
    if n >= 10 {
      ShowNatValue(n / 10);
      assert s[..|s| - 1] == ShowNat(n / 10);
    }
  }

  /** Decimal digits form a digit group. */
  lemma ShowNatIsDigitGroup(n: nat)
    ensures IsDigitGroup(ShowNat(n))
  {
  }

  /** A signed digit group parses to its value with the sign applied. */
  lemma ParseSigned(d: string)
    requires IsDigitGroup(d)
    ensures ParseInt("-" + d) == Some(0 - DigitsValue(d))
  {
    assert ("-" + d)[1..] == d;
  }

  /** An unsigned digit group parses to its value. */
  lemma ParseUnsigned(d: string)
    requires IsDigitGroup(d)
    ensures ParseInt(d) == Some(DigitsValue(d))
  {
    assert d[0] != '+' && d[0] != '-';
  }

  /** `int(str(n)) == n`. */
  lemma ParseShowInt(n: int)
    ensures ParseInt(ShowInt(n)) == Some(n)
  {
    var m: nat := if n < 0 then -n else n;
    ShowNatIsDigitGroup(m);
    ShowNatValue(m);
    if n < 0 {
      ParseSigned(ShowNat(m));
    } else {
      ParseUnsigned(ShowNat(m));
    }
  }
}
